=== FILE: README.md ===
# Toronto theft ETL scraper — Dafny model

The scraper (`scrape.py`) downloads auto- and bike-theft features from the
Toronto Police ArcGIS feature services. It cleans them into flat JSON records
and writes one file per theft type. This project models its pure core:

- **Query strategies** (`build_where_clauses`). An `OCC_YEAR` filter, then
  `OCC_DATE` and `REPORT_DATE` epoch filters, each only when the field was
  discovered, then the catch-all `1=1`. When discovery finds nothing, three
  guessed field names are used.
- **Pagination loop** of `fetch_features`. Pages of 2000 at offsets
  0, 2000, 4000, and so on. The loop stops on an empty page, on a short page
  without `exceededTransferLimit`, or once 100 000 features are collected.
  A failed request aborts the strategy.
- **Strategy fallback**. The first strategy whose download completes with at
  least one feature wins. A strategy that raised leaves its partial pages in
  `all_features`, so after the last strategy those pages are what is returned.
- **Newest-first ordering** (`sort_key` plus Python's stable `list.sort`).
  The key is the negated epoch-ms date when there is one, else the negated
  `year·10⁸ + month·10⁶ + day·10⁴ + hour·100`. A key that raises aborts the
  whole fetch.
- **`process_features`**. Coordinates come from the geometry, or from the
  attribute fields. A feature is kept when it is not at (0, 0), lies inside
  the Ontario box, and passes the year·100+month window. Each kept feature
  becomes a record. Text fields are stripped, and the id falls back to the
  number of records kept so far. The unguarded `int()` calls can raise out of
  the whole run.
- **`_first_of`, `parse_month`, `parse_date_string`**, and Python's `int()`
  on strings (whitespace, sign, underscores), which these rely on.
- **`main`**. Auto, then bike. An exception in either stage writes an empty
  file. The exit status is 1 exactly when no record was saved.

Attribute values are `Value = Null | Int | Num | Str`. An absent key and a
JSON `null` both read as `Null`, as `dict.get` does. Python's truthiness, `int()`
truncation toward zero and `str()` are written out. Calls into the standard
library that are not modelled come in as parameters:

- A `Runtime` supplies `float(str)`, `repr` of a float, and
  `datetime.fromtimestamp(...).strftime("%Y-%m-%d")`.
- A `Clock` supplies the cutoff year and month, the cutoff epoch-ms and the
  current year (`now_utc()` minus 180 days).
- The feature service is a function from (where, offset) to a page or a
  failure.

Modules, one per file: `Wrappers`, `Text`, `Attributes`, `Dates`, `WhereClauses`,
`Pagination`, `Strategies`, `StableSort`, `NewestFirst`, `Transform`, `Pipeline`.

Some behaviour of the code, stated plainly:

- The page cap counts features: the loop stops once 100 000 are collected.
  Full pages reach the cap after 50 requests; one-feature pages need 100 000.
- The window reaches back 180 days (`6 * 30`). A feature is compared by
  year·100+month against the cutoff's year·100+month.
- There is no upper bound on dates: future years are kept.
- `_first_of` takes the first value that is not `None`, so an empty string
  counts as present.
- A record's `day` is `int(day) if day else 1`, but its date string formats
  `int(day)` as it is. An OCC_DAY of 0 therefore gives day 1 beside a date
  ending in `-00`.

## Model

| member | source | states |
|---|---|---|
| Text.Strip | scrape.py:447-451 | `str.strip()` gives a contiguous slice of the input that neither starts nor ends with whitespace; everything cut from either end is whitespace |
| Text.StripIdempotent | scrape.py:447-451 | stripping an already stripped text changes nothing |
| Text.ParseInt | scrape.py:443-446 | `int()` of a str succeeds only on text whose first character after `int()` whitespace starts a numeral, and a negative result needs a leading minus |
| Text.ParseIntPadded | scrape.py:443-446 | `int()` reads every integer's decimal text back as that integer, whatever `int()` whitespace surrounds it |
| Text.ParsePlusDigits | scrape.py:443-446 | a '+' before a run of digits is accepted and gives the digits' value |
| Text.ParseUnderscoredDigits | scrape.py:443-446 | one underscore between two runs of digits is accepted and ignored in the value |
| Text.FileSeparatorOnlyStripped | scrape.py:443-451 | a leading U+001C is cut by `str.strip()` but makes `int()` raise |
| Text.ParseIntOfIntToString | scrape.py:443-446 | `int()` reads the decimal text of every integer back as that integer |
| Text.ParseIntOfFormatInt | scrape.py:355 | `int()` reads a zero-padded `{:0Nd}` rendering back as the original integer |
| Text.FormatIntFixedWidth | scrape.py:355 | `{:04d}` / `{:02d}` of a non-negative number below 10^width is exactly width decimal digits |
| Text.IntToStringInjective | scrape.py:182-201 | distinct integers print as distinct decimal texts |
| Attributes.ToInt | scrape.py:443-446 | `int(None)` raises TypeError, an int is unchanged, a float is truncated toward zero, a str converts exactly when `int()` parses it (surrounding whitespace, an optional sign, digits with single underscores between them) and then to the parsed value; every other failure is ValueError |
| Attributes.FirstOf | scrape.py:321-327 | with no listed key present (non-None) the default is returned; a non-None default never yields None |
| Attributes.FirstOfEarliest | scrape.py:321-327 | the earliest listed key with a non-None value wins, whatever follows it |
| Dates.ParseMonth | scrape.py:330-336 | numbers are truncated, a str gives a month 1-12, None gives 1 |
| Dates.ParseMonthNames | scrape.py:83-87 | the k-th calendar month name maps to k+1, any other str maps to 1, and a result other than 1 names its month |
| Dates.NumeralMonthIsJanuary | scrape.py:334-335 | the numeral string "3" is not a month name and gives January |
| Dates.ParseDateString | scrape.py:339-357 | an epoch-ms value the library converts gives the library's date; otherwise (also when the library fails) the first 10 characters of a long str; else zero-padded components; else `<current year>-01-01` when a component cannot be converted |
| Dates.DateStringRoundTrip | scrape.py:355 | a year 0-9999 with month and day 0-99 formats to a 10-character string that parses back to the same triple |
| Dates.ParseDateStringComponentsRoundTrip | scrape.py:350-355 | when the components are used (no converted epoch value, no long str) and the year is 0-9999 and month and day 0-99, the date string reads back as those components |
| Dates.ParseDateStringOfInts | scrape.py:350-355 | with no date value, int components are formatted as they are, a day of 0 included |
| Dates.MarchTenthString | scrape.py:355 | year 2025, month 3, day 10 format as "2025-03-10" |
| Dates.ParseDateStringFromComponents | scrape.py:330-355 | with no date field, an OCC_MONTH naming the k-th month puts month k+1 into the date string, beside the year and day given |
| Dates.ParseDateStringFallback | scrape.py:354-357 | with no date value, the year "unknown" makes `int()` raise, so whatever the month and day the date is `<current year>-01-01` |
| WhereClauses.BuildWhereClauses | scrape.py:166-204 | one filter per available field in the order year, OCC_DATE, REPORT_DATE (each present iff its field is), always ending with `1=1`, strictly ordered by kind |
| WhereClauses.EffectiveFields | scrape.py:226-231 | discovered fields are used as they are; an empty discovery falls back to OCC_YEAR, OCC_DATE, REPORT_DATE |
| WhereClauses.WhereInjective | scrape.py:182-201 | distinct strategies send distinct `where` texts |
| WhereClauses.AllFieldsGiveFourStrategies | scrape.py:166-204 | with the guessed fields the strategies are year, OCC_DATE, REPORT_DATE, all |
| Pagination.Paginate | scrape.py:243-280 | at least one request; the features collected so far are a prefix of the result; each request beyond the first added at least one feature |
| Pagination.FetchAllCharacterized | scrape.py:243-280 | request k asks for offset 2000·k; the loop continues exactly while pages continue it, ends normally at the first stopping page, aborts at the first failure, and returns the concatenation of the pages received |
| Pagination.ThreePageScenario | scrape.py:267-280 | pages of 2000, 2000 (flag set) and 500 (no flag) take 3 requests and yield 4500 features |
| Pagination.TrickleCostsLimitRequests | scrape.py:273-276 | one-feature pages that keep the transfer flag cost exactly 100 000 requests |
| Pagination.FullPagesCostFiftyRequests | scrape.py:273-276 | full pages reach the limit after exactly 50 requests |
| Strategies.TryStrategies | scrape.py:238-292 | strategies run in order; every one before the last attempted failed; the last attempted either succeeded or was the final one; the features returned are that strategy's |
| Strategies.FirstSuccessWins | scrape.py:282-284 | the first strategy that completes with a feature supplies the result, and no later strategy is tried |
| Strategies.NoSuccessKeepsLastPartial | scrape.py:286-292 | when no strategy works all are tried and the result is what the last left behind, non-empty only if it aborted |
| Strategies.TenOnThirdScenario | scrape.py:238-292 | two empty strategies and a third with ten features give those ten after three attempts |
| StableSort.SortBy | scrape.py:312 | the sort yields a permutation of its input in ascending key order |
| StableSort.SortByStable | scrape.py:312 | elements with equal keys keep their input order |
| NewestFirst.SortKey | scrape.py:299-310 | an epoch-ms date gives its negation; a key made of int year, month, day and hour is the negated composite of that stamp; a str year raises TypeError; otherwise the key raises ValueError exactly when `int()` of the day or hour (0 when falsy) raises, and else is the negated composite of the year (int or float), month, day and hour |
| NewestFirst.WeekdayDayKeyRaises | scrape.py:299-310 | with no date, OCC_DAY "Monday" makes the key raise ValueError |
| NewestFirst.StampKeyOrder | scrape.py:304-310 | for month, day and hour in 0-99 the composite key is smaller exactly when the stamp is later, and equal exactly when the stamps are equal |
| NewestFirst.SortNewestFirst | scrape.py:299-312 | the sort succeeds iff every key can be computed; the result is then a permutation of the features in ascending key order |
| NewestFirst.SortNewestFirstStable | scrape.py:312 | features with equal keys keep their fetch order |
| NewestFirst.SortNewestFirstByStamp | scrape.py:304-310 | among features keyed by an in-range composite, a later stamp never follows an earlier one |
| NewestFirst.SortNewestFirstByEpoch | scrape.py:301-303 | among features with an epoch-ms date, a larger timestamp never follows a smaller one |
| NewestFirst.ZeroOccDateDefersToReportDate | scrape.py:301 | an OCC_DATE of 0 is falsy, so REPORT_DATE supplies the epoch key |
| Transform.Coordinates | scrape.py:386-398 | when both `float()` conversions succeed (str values included, a missing value reading as 0.0) their results are the coordinates; a conversion that raises zeroes both |
| Transform.GeometryPreferred | scrape.py:386-391 | a geometry with numeric x and y supplies the coordinates |
| Transform.AttributesWhenGeometryIncomplete | scrape.py:389-391 | with x or y missing from the geometry, LAT_WGS84 / LONG_WGS84 supply them |
| Transform.MissingLatitudeRejected | scrape.py:394-407 | no geometry and no latitude field read as latitude 0, which is rejected |
| Transform.InWindow | scrape.py:425-436 | a year `int()` cannot convert keeps the feature; otherwise the feature is kept exactly when year·100+month reaches the cutoff's year·100+month, which for months of at most two digits is the calendar order of (year, month) |
| Transform.FutureYearsPass | scrape.py:426-436 | every year after the cutoff year passes the window, however far in the future |
| Transform.BuildRecord | scrape.py:438-451 | the record exists iff year, day and hour convert; it carries the feature's coordinates and theft type, the id `<type>-<id>`, the parsed month, the converted year, day and hour with their falsy defaults, the date string `parse_date_string` gives for the raw date and components, and the stripped text fields |
| Transform.ComponentsRecord | scrape.py:411-445 | with no date field, an int year, a month name and an int day, the record carries the year, the month's number, the day (1 for a day of 0) and the date string formatted from the year, month and unchanged day |
| Transform.MarchTenthRecord | scrape.py:411-423 | OCC_YEAR 2025, OCC_MONTH "March", OCC_DAY 10 and no date field give a record dated "2025-03-10" |
| Transform.WindowCarriesOver | scrape.py:426-443 | the record's year with the month meets the cutoff whenever the window check kept the feature |
| Transform.AcceptedBuildsWellFormed | scrape.py:400-451 | a record built from an accepted feature is in the box, tagged with its type, inside the window, and its id starts with `<type>-` |
| Transform.ScanFromIsFilterThenBuild | scrape.py:380-451 | the single loop equals filtering the accepted elements and building the i-th as number i; it succeeds iff all of them build |
| Transform.ProcessFeatures | scrape.py:360-455 | no more records than features, and every record is in the box, inside the window, tagged and prefixed with its theft type |
| Transform.ProcessFeaturesIsFilterThenBuild | scrape.py:380-451 | the records are the accepted features in input order, the i-th built with i records kept before it; the run raises iff one of them does not build |
| Transform.UnbuildableAborts | scrape.py:438-446 | one accepted feature whose year, day or hour does not convert makes the whole run raise |
| Transform.UnconvertibleYearAborts | scrape.py:426-443 | a non-numeric OCC_YEAR is kept by the window check but then raises, losing the whole run |
| Transform.WeekdayNameRaises | scrape.py:414-445 | with no OCC_DAY, OCC_DOW "Monday" stands in and `int(day)` raises ValueError |
| Transform.MissingHourIsNoon | scrape.py:415-446 | a missing OCC_HOUR gives hour 12 |
| Transform.FalsyHourIsMidnight | scrape.py:415-446 | an OCC_HOUR of 0 or "" is present, so it is not defaulted, and gives hour 0 |
| Transform.MissingNeighbourhoodIsUnknown | scrape.py:416-447 | no neighbourhood field gives "Unknown" |
| Transform.EmptyNeighbourhoodStaysEmpty | scrape.py:416-447 | an empty NEIGHBOURHOOD_158 counts as present and gives "" |
| Transform.EventIdNamesRecord | scrape.py:410-439 | a present EVENT_UNIQUE_ID e gives the id `<type>-e` |
| Transform.PositionalIds | scrape.py:410-439 | a kept feature with no id field gets `<type>-<i>`, i being its position among the kept records |
| Transform.TextField | scrape.py:447-451 | the text is the slice of `str(v)` left once the whitespace at both ends is cut, it has none left to strip, and a text that needs no stripping is kept as it is |
| Pipeline.Wheres | scrape.py:226-238 | the `where` texts are those of the strategies built from the effective fields, in the same order: one to four, the last always `1=1` |
| Pipeline.FetchFeatures | scrape.py:294-315 | nothing when the strategies leave nothing; otherwise it succeeds iff every sort key does, giving the stable newest-first sort of the fetched features |
| Pipeline.FetchFeaturesStable | scrape.py:312 | fetched features with equal keys keep their download order |
| Pipeline.RunTheftType | scrape.py:487-504 | the saved records are well formed for their theft type and no more numerous than the fetched features |
| Pipeline.RunTheftTypeComposes | scrape.py:490-504 | an exception in either stage saves nothing; otherwise the records are the accepted sorted features, each built with its position |
| Pipeline.UnreachableServiceSavesNothing | scrape.py:238-296 | a service whose every request fails has every strategy tried and saves an empty file |
| Pipeline.Main | scrape.py:476-520 | each file holds what its theft type's run saved (auto, then bike); both hold only well-formed records of their own type; the exit status is 1 iff no record was saved, else 0 |
| Pipeline.UnreachableServicesExitOne | scrape.py:515-518 | with both services unreachable the run saves two empty files and exits with 1 |

## Left out

- `http_get_json` is left out: the HTTP request, its retries with delays, the timeout and error-object parsing. The service is a function returning a page or a failure; any exception it raised is a failure.
- `discover_fields` is left out: the discovered field list is a parameter, and its own failure reads as an empty list.
- `now_utc`, `timedelta` and the cutoff computation are a `Clock` parameter. All calls are taken to see the same instant.
- `float()` on strings, `repr` of floats and `datetime.fromtimestamp(...).strftime` are `Runtime` parameters; the library errors they can raise are modelled as a missing result.
- `round(lat, 6)` / `round(lng, 6)` are not modelled: records carry the unrounded coordinates that were validated.
- `save_json`, every `print`, the discard counters, the elapsed time and `sys.exit` are left out. `Main` returns the two record lists and the exit status.
- `division` and `location_type` are looked up but never used in the record, so they are left out.
- A feature whose `attributes` is JSON null is not modelled: `Feature.attributes` is always a map, so the AttributeError `sort_key` would raise on `attrs.get` (which aborts the fetch and saves an empty file) has no counterpart. Neither is the OverflowError `float()` raises for an int coordinate beyond the double range; `ToFloat` converts every int, and that error, which the coordinate `except` does not catch, would likewise abort the run.
- Booleans, lists and objects as attribute values are not modelled, nor NaN or infinite floats, nor `OverflowError` from `fromtimestamp`.
- Transform.Coordinates: the `Runtime` float parser stands in for `float()`, including its handling of whitespace and exponents.
- Attributes.ToInt: Unicode decimal digits are not modelled, only ASCII digits, and neither is the 4300-digit limit that CPython 3.11 and later put on `int()` of a str.
- NewestFirst.StampKeyOrder: it holds only for month, day and hour in 0-99, because outside that range the composite key's decimal fields overlap, as they do in the source.
- NewestFirst.SortKey: a float sort key is an exact real, not an IEEE double, so the rounding of very large keys is not modelled.
- Transform.MissingNeighbourhoodIsUnknown: it is stated for the record's text field; `BuildRecord` states that the record's neighbourhood is that text.
- Deduplication, id suffixing and the static/live data split are not part of `scrape.py` and are not modelled.
- The endpoint URLs, `OUTPUT_DIR`, the retry and timeout constants, and file names are configuration that the core does not compute with.

=== FILE: attributes.dfy ===
/**
 * Attribute maps of the feature service and the Python conversions the
 * script applies to their values: truthiness, `int()`, `float()`, `str()`,
 * and the ordered field lookup `_first_of`.
 */
module Attributes {
  import opened Wrappers
  import opened Text

  /** A JSON scalar as the feature service returns it inside an attribute map. */
  datatype Value = Null | Int(i: int) | Num(r: real) | Str(s: string)

  type Attrs = map<string, Value>

  /** One raw feature: its attribute map and its geometry map (empty when absent). */
  datatype Feature = Feature(attributes: Attrs, geometry: Attrs)

  /** The exceptions a failed conversion raises. */
  datatype ConversionError = TypeError | ValueError

  /**
   * Library behaviour the model does not reimplement: `float(s)` for a str
   * (None for a ValueError or a non-finite result), `str(x)` for a float, and
   * `datetime.fromtimestamp(ms / 1000, utc).strftime("%Y-%m-%d")` (None when the
   * library raises OSError or ValueError).
   */
  datatype Runtime = Runtime(
    parseFloat: string -> Option<real>,
    floatRepr: real -> string,
    epochToDate: real -> Option<string>)

  /**
   * The reference instant, injected: `cutoff*` describe now - 180 days,
   * `currentYear` is now's year.
   */
  datatype Clock = Clock(cutoffYear: int, cutoffMonth: int, cutoffMs: int, currentYear: nat)

  /** `attrs.get(key)`: a missing key reads as None. */
  function Get(attrs: Attrs, key: string): (v: Value)
    ensures key !in attrs ==> v == Null
    ensures key in attrs ==> v == attrs[key]
  {
    if key in attrs then attrs[key] else Null
  }

  /** Python truthiness: None, 0, 0.0 and "" are false. */
  predicate Truthy(v: Value) {
    match v
    case Null => false
    case Int(i) => i != 0
    case Num(r) => r != 0.0
    case Str(s) => |s| > 0
  }

  predicate IsNumber(v: Value) {
    v.Int? || v.Num?
  }

  function AsReal(v: Value): real
    requires IsNumber(v)
  {
    if v.Int? then v.i as real else v.r
  }

  /** Python's `int(x)` for a float: truncation toward zero. */
  function Trunc(r: real): (n: int)
    ensures 0.0 <= r ==> n as real <= r < n as real + 1.0
    ensures r < 0.0 ==> n as real - 1.0 < r <= n as real
  {
    if r >= 0.0 then r.Floor else -((-r).Floor)
  }

  /** Python's `int(v)`. */
  function ToInt(v: Value): (r: Result<int, ConversionError>)
    ensures v.Null? ==> r == Err(TypeError)
    ensures v.Int? ==> r == Ok(v.i)
    ensures v.Num? ==> r == Ok(Trunc(v.r))
    ensures v.Str? ==> (r.Ok? <==> ParseInt(v.s).Some?)
    ensures v.Str? && r.Ok? ==> ParseInt(v.s) == Some(r.value)
    ensures r.Err? ==> r.error == (if v.Null? then TypeError else ValueError)
  {
    match v
    case Null => Err(TypeError)
    case Int(i) => Ok(i)
    case Num(x) => Ok(Trunc(x))
    case Str(s) =>
      match ParseInt(s)
      case Some(n) => Ok(n)
      case None => Err(ValueError)
  }

  /** Python's `float(v)`. */
  function ToFloat(rt: Runtime, v: Value): Result<real, ConversionError> {
    match v
    case Null => Err(TypeError)
    case Int(i) => Ok(i as real)
    case Num(x) => Ok(x)
    case Str(s) =>
      match rt.parseFloat(s)
      case Some(x) => Ok(x)
      case None => Err(ValueError)
  }

  /** Python's `str(v)`. */
  function ToStr(rt: Runtime, v: Value): string {
    match v
    case Null => "None"
    case Int(i) => IntToString(i)
    case Num(x) => rt.floatRepr(x)
    case Str(s) => s
  }

  /** None of `names` is present with a non-None value. */
  predicate NoneOf(attrs: Attrs, names: seq<string>) {
    forall k | 0 <= k < |names| :: Get(attrs, names[k]).Null?
  }

  /**
   * `_first_of(attrs, names, default)`: the value of the earliest listed key
   * whose value is not None ("" and 0 count as present), else `default`.
   */
  function FirstOf(attrs: Attrs, names: seq<string>, default: Value): (r: Value)
    ensures NoneOf(attrs, names) ==> r == default
    ensures !default.Null? ==> !r.Null?
  {
    if |names| == 0 then default
    else if !Get(attrs, names[0]).Null? then Get(attrs, names[0])
    else
      assert NoneOf(attrs, names) ==> NoneOf(attrs, names[1..]) by {
        assert forall k | 0 <= k < |names[1..]| :: names[1..][k] == names[k + 1];
      }
      FirstOf(attrs, names[1..], default)
  }

  /** The earliest present key wins: every key before it is absent or None. */
  lemma {:induction false} FirstOfEarliest(attrs: Attrs, names: seq<string>, default: Value, k: nat)
    requires k < |names| && NoneOf(attrs, names[..k]) && !Get(attrs, names[k]).Null?
    ensures FirstOf(attrs, names, default) == Get(attrs, names[k])
  {
    if k > 0 {
      var head, tail := names[..k], names[1..][..k - 1];
      assert Get(attrs, head[0]).Null?;
      forall j | 0 <= j < |tail| ensures Get(attrs, tail[j]).Null? {
        assert tail[j] == head[j + 1];
      }
      FirstOfEarliest(attrs, names[1..], default, k - 1);
    }
  }
}

=== FILE: dates.dfy ===
/**
 * Month names and the `YYYY-MM-DD` date string of a feature
 * (`parse_month`, `parse_date_string` and the month table).
 */
module Dates {
  import opened Wrappers
  import opened Text
  import opened Attributes

  /** MONTH_NAME_TO_NUM: the twelve English month names. */
  const MONTH_NAME_TO_NUM: map<string, int> := map[
    "January" := 1, "February" := 2, "March" := 3, "April" := 4,
    "May" := 5, "June" := 6, "July" := 7, "August" := 8,
    "September" := 9, "October" := 10, "November" := 11, "December" := 12]

  /** The same names in calendar order, as an independent reference. */
  const MONTH_NAMES: seq<string> := [
    "January", "February", "March", "April", "May", "June", "July",
    "August", "September", "October", "November", "December"]

  /** `parse_month`: numbers are truncated, known names map to 1-12, anything else is 1. */
  function ParseMonth(raw: Value): (m: int)
    ensures raw.Str? ==> 1 <= m <= 12
    ensures raw.Int? ==> m == raw.i
    ensures raw.Num? ==> m == Trunc(raw.r)
    ensures raw.Null? ==> m == 1
  {
    match raw
    case Int(i) => i
    case Num(x) => Trunc(x)
    case Str(s) => if s in MONTH_NAME_TO_NUM then MONTH_NAME_TO_NUM[s] else 1
    case Null => 1
  }

  /** A month name is read back as its position in the calendar, and nothing else is. */
  lemma ParseMonthNames(s: string)
    ensures forall k | 0 <= k < 12 :: ParseMonth(Str(MONTH_NAMES[k])) == k + 1
    ensures s !in MONTH_NAMES ==> ParseMonth(Str(s)) == 1
    ensures ParseMonth(Str(s)) != 1 ==> s == MONTH_NAMES[ParseMonth(Str(s)) - 1]
  {
  }

  /** A numeral is not a month name: the string "3" gives January. */
  lemma NumeralMonthIsJanuary()
    ensures ParseMonth(Str("3")) == 1
  {
    assert "3" !in MONTH_NAME_TO_NUM;
  }

  /** A number above 1e9 in a date field is read as epoch milliseconds. */
  predicate IsEpochMs(v: Value) {
    IsNumber(v) && AsReal(v) > 1_000_000_000.0
  }

  /** The raw date is epoch-ms and the library converts it. */
  predicate EpochConverts(rt: Runtime, v: Value) {
    IsEpochMs(v) && rt.epochToDate(AsReal(v)).Some?
  }

  /** A str of at least ten characters, taken to start with a date. */
  predicate LongString(v: Value) {
    v.Str? && |v.s| >= 10
  }

  /** The zero-padded `YYYY-MM-DD` form of a (year, month, day) triple. */
  function DateString(year: int, month: int, day: int): string {
    FormatInt(year, 4) + "-" + FormatInt(month, 2) + "-" + FormatInt(day, 2)
  }

  /**
   * `parse_date_string(raw_date, year, month, day)`: an epoch-ms number is
   * converted by the library; failing that a str of 10+ characters gives its
   * first 10; failing that the components are formatted; if one of them cannot
   * be converted by `int()`, `"{current year}-01-01"`.
   */
  function ParseDateString(rt: Runtime, currentYear: int, rawDate: Value, year: Value, month: Value, day: Value): (r: string)
    ensures EpochConverts(rt, rawDate) ==> r == rt.epochToDate(AsReal(rawDate)).value
    ensures LongString(rawDate) ==> |r| == 10 && r <= rawDate.s
    ensures !EpochConverts(rt, rawDate) && !LongString(rawDate) && ToInt(year).Ok? && ToInt(month).Ok? && ToInt(day).Ok? ==>
              r == DateString(ToInt(year).value, ToInt(month).value, ToInt(day).value)
    ensures !EpochConverts(rt, rawDate) && !LongString(rawDate) && (ToInt(year).Err? || ToInt(month).Err? || ToInt(day).Err?) ==>
              r == IntToString(currentYear) + "-01-01"
  {
    var converted :=
      if IsEpochMs(rawDate) then rt.epochToDate(AsReal(rawDate)) else None;
    if converted.Some? then converted.value
    else if LongString(rawDate) then rawDate.s[..10]
    else
      var y, m, d := ToInt(year), ToInt(month), ToInt(day);
      if y.Ok? && m.Ok? && d.Ok? then DateString(y.value, m.value, d.value)
      else IntToString(currentYear) + "-01-01"
  }

  datatype Date = Date(year: int, month: int, day: int)

  /** Reads a `YYYY-MM-DD` string back into its numbers (the inverse of DateString). */
  function ParseIsoDate(s: string): Option<Date> {
    if |s| == 10 && s[4] == '-' && s[7] == '-'
       && AllDigits(s[..4]) && AllDigits(s[5..7]) && AllDigits(s[8..])
    then Some(Date(DigitsValue(s[..4]), DigitsValue(s[5..7]), DigitsValue(s[8..])))
    else None
  }

  /** Splitting four, two and two digits joined by dashes gives back their values. */
  lemma {:induction false} ParseJoinedDigits(y: string, m: string, d: string)
    requires |y| == 4 && |m| == 2 && |d| == 2
    requires AllDigits(y) && AllDigits(m) && AllDigits(d)
    ensures ParseIsoDate(y + "-" + m + "-" + d) == Some(Date(DigitsValue(y), DigitsValue(m), DigitsValue(d)))
  {
    var s := y + "-" + m + "-" + d;
    assert s[..4] == y;
    assert s[5..7] == m;
    assert s[8..] == d;
  }

  /** Formatting a four-digit year, a month and a day is undone by ParseIsoDate. */
  lemma DateStringRoundTrip(year: int, month: int, day: int)
    requires 0 <= year <= 9999 && 0 <= month <= 99 && 0 <= day <= 99
    ensures |DateString(year, month, day)| == 10
    ensures ParseIsoDate(DateString(year, month, day)) == Some(Date(year, month, day))
  {
    assert Pow10(4) == 10000 && Pow10(2) == 100;
    FormatIntFixedWidth(year, 4);
    FormatIntFixedWidth(month, 2);
    FormatIntFixedWidth(day, 2);
    ParseJoinedDigits(FormatInt(year, 4), FormatInt(month, 2), FormatInt(day, 2));
  }

  /** With no date value, integer components are formatted as they are. */
  lemma ParseDateStringOfInts(rt: Runtime, currentYear: int, year: int, month: int, day: int)
    ensures ParseDateString(rt, currentYear, Str(""), Int(year), Int(month), Int(day)) == DateString(year, month, day)
  {
    var raw := Str("");
    assert !IsNumber(raw) && |raw.s| < 10;
    assert ToInt(Int(year)) == Ok(year) && ToInt(Int(month)) == Ok(month) && ToInt(Int(day)) == Ok(day);
  }

  /** Year 2025, month 3, day 10 format as "2025-03-10". */
  lemma MarchTenthString()
    ensures DateString(2025, 3, 10) == "2025-03-10"
  {
    assert NatToString(2) == "2";
    assert NatToString(20) == "20";
    assert NatToString(202) == "202";
    assert NatToString(2025) == "2025";
    assert NatToString(3) == "3";
    assert NatToString(1) == "1";
    assert NatToString(10) == "10";
  }

  /**
   * The date string built from components with a month name and no date
   * field: OCC_MONTH naming the k-th month gives month k + 1 in the string.
   */
  lemma ParseDateStringFromComponents(rt: Runtime, currentYear: int, year: int, k: nat, day: int)
    requires 0 <= year <= 9999 && k < 12 && 0 <= day <= 99
    ensures ParseIsoDate(ParseDateString(rt, currentYear, Str(""), Int(year),
                                         Int(ParseMonth(Str(MONTH_NAMES[k]))), Int(day)))
            == Some(Date(year, k + 1, day))
  {
    ParseMonthNames("");
    ParseDateStringComponentsRoundTrip(rt, currentYear, Str(""), year, k + 1, day);
  }

  /**
   * When the components are used (no converted epoch value, no long string)
   * and fit four, two and two digits, the result reads back as them.
   */
  lemma ParseDateStringComponentsRoundTrip(rt: Runtime, currentYear: int, rawDate: Value, year: int, month: int, day: int)
    requires !EpochConverts(rt, rawDate) && !LongString(rawDate)
    requires 0 <= year <= 9999 && 0 <= month <= 99 && 0 <= day <= 99
    ensures ParseIsoDate(ParseDateString(rt, currentYear, rawDate, Int(year), Int(month), Int(day)))
            == Some(Date(year, month, day))
  {
    assert ToInt(Int(year)) == Ok(year) && ToInt(Int(month)) == Ok(month) && ToInt(Int(day)) == Ok(day);
    assert ParseDateString(rt, currentYear, rawDate, Int(year), Int(month), Int(day)) == DateString(year, month, day);
    DateStringRoundTrip(year, month, day);
  }

  /** An unconvertible component gives January 1st of the current year. */
  lemma ParseDateStringFallback(rt: Runtime, currentYear: nat, month: Value, day: Value)
    ensures ParseDateString(rt, currentYear, Str(""), Str("unknown"), month, day)
            == IntToString(currentYear) + "-01-01"
  {
    NotANumeral();
  }

  lemma NotANumeral()
    ensures ToInt(Str("unknown")) == Err(ValueError)
  {
    ParseIntRejects("unknown");
  }
}

=== FILE: newest_first.dfy ===
/**
 * The newest-first ordering of `fetch_features`: the `sort_key` of a raw
 * feature and the stable ascending sort by it.
 */
module NewestFirst {
  import opened Wrappers
  import opened Attributes
  import opened Dates
  import opened StableSort
  import Text

  /** `attrs.get(name, 0) or 0`: a missing, None or falsy value becomes 0. */
  function OrZero(v: Value): (r: Value)
    ensures Truthy(v) ==> r == v
    ensures !Truthy(v) ==> r == Int(0)
  {
    if Truthy(v) then v else Int(0)
  }

  /** `OCC_DATE or REPORT_DATE`: a falsy OCC_DATE (None, 0, "") defers to REPORT_DATE. */
  function DateValue(attrs: Attrs): Value {
    var occ := Get(attrs, "OCC_DATE");
    if Truthy(occ) then occ else Get(attrs, "REPORT_DATE")
  }

  /**
   * The month term of the key: a str is looked up with default 0 (a missing
   * OCC_MONTH reads as ""), anything else goes through `int(month or 0)`.
   */
  function KeyMonth(attrs: Attrs): int {
    var m := if "OCC_MONTH" in attrs then attrs["OCC_MONTH"] else Str("");
    match m
    case Str(s) => if s in MONTH_NAME_TO_NUM then MONTH_NAME_TO_NUM[s] else 0
    case Null => 0
    case Int(i) => i
    case Num(x) => Trunc(x)
  }

  /** The negated `year*1e8 + month*1e6 + day*1e4 + hour*100`. */
  function CompositeKey(year: real, month: int, day: int, hour: int): real {
    -(year * 100000000.0 + month as real * 1000000.0 + day as real * 10000.0 + hour as real * 100.0)
  }

  /**
   * `sort_key`: the negated epoch value when the date field holds one, else the
   * negated composite; a str year makes `year * 100000000 + ...` raise
   * TypeError, a non-numeric day or hour makes `int()` raise ValueError.
   */
  function SortKey(attrs: Attrs): (r: Result<real, ConversionError>)
    ensures IsEpochMs(DateValue(attrs)) ==> r == Ok(-AsReal(DateValue(attrs)))
    ensures StampOf(attrs).Some? ==> r == Ok(StampKey(StampOf(attrs).value))
    ensures !IsEpochMs(DateValue(attrs)) && OrZero(Get(attrs, "OCC_YEAR")).Str? ==> r == Err(TypeError)
    ensures !IsEpochMs(DateValue(attrs)) && !OrZero(Get(attrs, "OCC_YEAR")).Str? ==>
              (r.Err? <==> ToInt(OrZero(Get(attrs, "OCC_DAY"))).Err? || ToInt(OrZero(Get(attrs, "OCC_HOUR"))).Err?)
    ensures !IsEpochMs(DateValue(attrs)) && !OrZero(Get(attrs, "OCC_YEAR")).Str? && r.Err? ==> r.error == ValueError
    ensures !IsEpochMs(DateValue(attrs)) && r.Ok? ==>
              r.value == CompositeKey(AsReal(OrZero(Get(attrs, "OCC_YEAR"))), KeyMonth(attrs),
                                      ToInt(OrZero(Get(attrs, "OCC_DAY"))).value,
                                      ToInt(OrZero(Get(attrs, "OCC_HOUR"))).value)
  {
    var date := DateValue(attrs);
    if IsEpochMs(date) then Ok(-AsReal(date))
    else
      var year := OrZero(Get(attrs, "OCC_YEAR"));
      if year.Str? then Err(TypeError)
      else
        var day := ToInt(OrZero(Get(attrs, "OCC_DAY")));
        var hour := ToInt(OrZero(Get(attrs, "OCC_HOUR")));
        if day.Err? then Err(day.error)
        else if hour.Err? then Err(hour.error)
        else Ok(CompositeKey(AsReal(year), KeyMonth(attrs), day.value, hour.value))
  }

  /** With no date, a weekday name in OCC_DAY makes `int(day or 0)` raise ValueError. */
  lemma WeekdayDayKeyRaises(attrs: Attrs, y: int)
    requires Get(attrs, "OCC_DATE").Null? && Get(attrs, "REPORT_DATE").Null?
    requires Get(attrs, "OCC_YEAR") == Int(y)
    requires Get(attrs, "OCC_DAY") == Str("Monday")
    ensures SortKey(attrs) == Err(ValueError)
  {
    Text.ParseIntRejects("Monday");
  }

  // ---------------------------------------------------------------------
  // What the key orders
  // ---------------------------------------------------------------------

  datatype Stamp = Stamp(year: int, month: int, day: int, hour: int)

  /** `a` is strictly later than `b`, comparing year, month, day, hour in turn. */
  predicate Later(a: Stamp, b: Stamp) {
    || a.year > b.year
    || (a.year == b.year && a.month > b.month)
    || (a.year == b.year && a.month == b.month && a.day > b.day)
    || (a.year == b.year && a.month == b.month && a.day == b.day && a.hour > b.hour)
  }

  /** Month, day and hour fit in their two decimal digits of the composite. */
  predicate InRange(s: Stamp) {
    0 <= s.month < 100 && 0 <= s.day < 100 && 0 <= s.hour < 100
  }

  function StampKey(s: Stamp): real {
    CompositeKey(s.year as real, s.month, s.day, s.hour)
  }

  lemma CompositeOfInts(s: Stamp)
    ensures StampKey(s)
            == -((s.year * 100000000 + s.month * 1000000 + s.day * 10000 + s.hour * 100) as real)
  {
    assert s.year as real * 100000000.0 == (s.year * 100000000) as real;
    assert s.month as real * 1000000.0 == (s.month * 1000000) as real;
    assert s.day as real * 10000.0 == (s.day * 10000) as real;
    assert s.hour as real * 100.0 == (s.hour * 100) as real;
  }

  /** For in-range stamps, a smaller key means exactly a later stamp. */
  lemma StampKeyOrder(a: Stamp, b: Stamp)
    requires InRange(a) && InRange(b)
    ensures StampKey(a) < StampKey(b) <==> Later(a, b)
    ensures StampKey(a) == StampKey(b) <==> a == b
  {
    var ta := a.month * 1000000 + a.day * 10000 + a.hour * 100;
    var tb := b.month * 1000000 + b.day * 10000 + b.hour * 100;
    assert 0 <= ta < 100000000 && 0 <= tb < 100000000;
    CompositeOfInts(a);
    CompositeOfInts(b);
    if a.year != b.year {
      assert a.year > b.year ==> a.year * 100000000 >= b.year * 100000000 + 100000000;
      assert b.year > a.year ==> b.year * 100000000 >= a.year * 100000000 + 100000000;
    } else if a.month != b.month {
      assert a.month > b.month ==> ta > tb;
      assert b.month > a.month ==> tb > ta;
    }
  }

  /** The stamp a feature's key is composed from, when the key is a composite of ints. */
  function StampOf(attrs: Attrs): Option<Stamp> {
    if IsEpochMs(DateValue(attrs)) then None
    else
      var year := OrZero(Get(attrs, "OCC_YEAR"));
      var day := ToInt(OrZero(Get(attrs, "OCC_DAY")));
      var hour := ToInt(OrZero(Get(attrs, "OCC_HOUR")));
      if year.Int? && day.Ok? && hour.Ok? then Some(Stamp(year.i, KeyMonth(attrs), day.value, hour.value))
      else None
  }

  /** The key used for sorting once every key has been computed. */
  function KeyOf(f: Feature): real {
    match SortKey(f.attributes)
    case Ok(k) => k
    case Err(_) => 0.0
  }

  /** The exception of the first feature whose key cannot be computed. */
  function KeyError(fs: seq<Feature>): (e: Option<ConversionError>)
    ensures e.None? <==> forall i | 0 <= i < |fs| :: SortKey(fs[i].attributes).Ok?
  {
    if |fs| == 0 then None
    else
      match SortKey(fs[0].attributes)
      case Err(e) => Some(e)
      case Ok(_) =>
        var rest := KeyError(fs[1..]);
        assert forall i | 1 <= i < |fs| :: fs[i] == fs[1..][i - 1];
        rest
  }

  /**
   * `all_features.sort(key=sort_key)`: every key is computed first, so one
   * failing key raises and nothing is sorted; otherwise the result is a
   * permutation of the input in ascending key order.
   */
  function SortNewestFirst(fs: seq<Feature>): (r: Result<seq<Feature>, ConversionError>)
    ensures r.Ok? <==> forall i | 0 <= i < |fs| :: SortKey(fs[i].attributes).Ok?
    ensures r.Ok? ==> multiset(r.value) == multiset(fs)
    ensures r.Ok? ==> Sorted(r.value, KeyOf)
  {
    match KeyError(fs)
    case Some(e) => Err(e)
    case None => Ok(SortBy(fs, KeyOf))
  }

  /** Features with equal keys keep the order in which they were fetched. */
  lemma SortNewestFirstStable(fs: seq<Feature>, k: real)
    requires SortNewestFirst(fs).Ok?
    ensures WithKey(SortNewestFirst(fs).value, KeyOf, k) == WithKey(fs, KeyOf, k)
  {
    SortByStable(fs, KeyOf, k);
  }

  /**
   * Among features keyed by an in-range composite, a later (year, month,
   * day, hour) never comes after an earlier one.
   */
  lemma SortNewestFirstByStamp(fs: seq<Feature>, i: nat, j: nat)
    requires SortNewestFirst(fs).Ok?
    requires i < j < |SortNewestFirst(fs).value|
    requires StampOf(SortNewestFirst(fs).value[i].attributes).Some?
    requires StampOf(SortNewestFirst(fs).value[j].attributes).Some?
    requires InRange(StampOf(SortNewestFirst(fs).value[i].attributes).value)
    requires InRange(StampOf(SortNewestFirst(fs).value[j].attributes).value)
    ensures !Later(StampOf(SortNewestFirst(fs).value[j].attributes).value,
                   StampOf(SortNewestFirst(fs).value[i].attributes).value)
  {
    var r := SortNewestFirst(fs).value;
    var a, b := StampOf(r[i].attributes).value, StampOf(r[j].attributes).value;
    assert KeyOf(r[i]) <= KeyOf(r[j]);
    StampKeyOrder(b, a);
  }

  /** Among features with an epoch-ms date, a larger timestamp never comes after a smaller one. */
  lemma SortNewestFirstByEpoch(fs: seq<Feature>, i: nat, j: nat)
    requires SortNewestFirst(fs).Ok?
    requires i < j < |SortNewestFirst(fs).value|
    requires IsEpochMs(DateValue(SortNewestFirst(fs).value[i].attributes))
    requires IsEpochMs(DateValue(SortNewestFirst(fs).value[j].attributes))
    ensures AsReal(DateValue(SortNewestFirst(fs).value[i].attributes))
            >= AsReal(DateValue(SortNewestFirst(fs).value[j].attributes))
  {
    var r := SortNewestFirst(fs).value;
    assert KeyOf(r[i]) <= KeyOf(r[j]);
  }

  /** An OCC_DATE of 0 is falsy, so REPORT_DATE supplies the epoch key. */
  lemma ZeroOccDateDefersToReportDate(ms: int)
    requires ms > 1_000_000_000
    ensures SortKey(map["OCC_DATE" := Int(0), "REPORT_DATE" := Int(ms)]) == Ok(-(ms as real))
  {
    var attrs := map["OCC_DATE" := Int(0), "REPORT_DATE" := Int(ms)];
    assert DateValue(attrs) == Int(ms);
  }
}

=== FILE: pagination.dfy ===
/**
 * The paginated download of one WHERE strategy (the inner `while True` loop
 * of `fetch_features`): pages of PAGE_SIZE requested at increasing offsets
 * until the service signals the end or the safety limit is reached.
 */
module Pagination {

  const PAGE_SIZE: nat := 2000
  const SAFETY_LIMIT: nat := 100000

  /**
   * The service's answer to one page request: the `features` list and the
   * `exceededTransferLimit` flag (false when absent), or an exception raised
   * by the HTTP layer.
   */
  datatype Response<F> = Page(features: seq<F>, exceeded: bool) | Failure

  /**
   * How the loop ended: normally, or by an exception after `features` had
   * been collected. `requests` counts the page requests issued.
   */
  datatype Paged<F> =
    | Done(features: seq<F>, requests: nat)
    | Aborted(features: seq<F>, requests: nat)

  /** A page after which the loop issues another request. */
  predicate Continues(count: nat, exceeded: bool, total: nat) {
    count > 0 && total < SAFETY_LIMIT && (exceeded || count >= PAGE_SIZE)
  }

  /**
   * The loop from `offset` with `acc` already collected. Every page that does
   * not end the loop adds at least one feature and leaves fewer than
   * SAFETY_LIMIT collected, so `SAFETY_LIMIT - |acc|` decreases.
   */
  function Paginate<F>(fetch: int -> Response<F>, offset: int, acc: seq<F>): (p: Paged<F>)
    ensures p.requests >= 1
    ensures acc <= p.features
    ensures p.requests <= |p.features| - |acc| + 1
    decreases if |acc| < SAFETY_LIMIT then SAFETY_LIMIT - |acc| else 0
  {
    match fetch(offset)
    case Failure => Aborted(acc, 1)
    case Page(page, exceeded) =>
      if |page| == 0 then Done(acc, 1)
      else
        var total := acc + page;
        if !Continues(|page|, exceeded, |total|) then Done(total, 1)
        else
          match Paginate(fetch, offset + PAGE_SIZE, total)
          case Done(fs, n) => Done(fs, n + 1)
          case Aborted(fs, n) => Aborted(fs, n + 1)
  }

  /** The download of one strategy, from offset 0 with nothing collected. */
  function FetchAll<F>(fetch: int -> Response<F>): Paged<F> {
    Paginate(fetch, 0, [])
  }

  // ---------------------------------------------------------------------
  // Reference description: the k-th request asks for offset k * PAGE_SIZE.
  // ---------------------------------------------------------------------

  function PageAt<F>(fetch: int -> Response<F>, k: nat): Response<F> {
    fetch(k * PAGE_SIZE)
  }

  function PageFeatures<F>(r: Response<F>): seq<F> {
    if r.Page? then r.features else []
  }

  /** Features of the first n pages, concatenated in request order. */
  function Collected<F>(fetch: int -> Response<F>, n: nat): seq<F> {
    if n == 0 then [] else Collected(fetch, n - 1) + PageFeatures(PageAt(fetch, n - 1))
  }

  /** After page k the loop asks for page k + 1. */
  predicate ContinuesAfter<F>(fetch: int -> Response<F>, k: nat) {
    var r := PageAt(fetch, k);
    r.Page? && Continues(|r.features|, r.exceeded, |Collected(fetch, k + 1)|)
  }

  /** Page k ends the loop normally: empty, short without the flag, or at the limit. */
  predicate StopsAt<F>(fetch: int -> Response<F>, k: nat) {
    PageAt(fetch, k).Page? && !ContinuesAfter(fetch, k)
  }

  lemma {:induction false} PaginateFrom<F>(fetch: int -> Response<F>, k: nat)
    requires forall j | 0 <= j < k :: ContinuesAfter(fetch, j)
    ensures var p := Paginate(fetch, k * PAGE_SIZE, Collected(fetch, k));
            var n := k + p.requests;
            && (forall j | 0 <= j < n - 1 :: ContinuesAfter(fetch, j))
            && (p.Done? <==> StopsAt(fetch, n - 1))
            && (p.Aborted? <==> PageAt(fetch, n - 1).Failure?)
            && p.features == Collected(fetch, n)
    decreases SAFETY_LIMIT - |Collected(fetch, k)|
  {
    var acc := Collected(fetch, k);
    assert k > 0 ==> |acc| < SAFETY_LIMIT by {
      if k > 0 {
        assert ContinuesAfter(fetch, k - 1);
      }
    }
    var r := PageAt(fetch, k);
    assert Collected(fetch, k + 1) == acc + PageFeatures(r);
    if r.Page? && ContinuesAfter(fetch, k) {
      assert (k + 1) * PAGE_SIZE == k * PAGE_SIZE + PAGE_SIZE;
      PaginateFrom(fetch, k + 1);
    }
  }

  /**
   * FetchAll issues requests at offsets 0, PAGE_SIZE, 2 * PAGE_SIZE, ...; it
   * goes on exactly while pages continue the loop, stops at the first page
   * that is empty, short without the transfer flag, or brings the total to
   * SAFETY_LIMIT, or aborts at the first failed request; what it returns is
   * the concatenation of the pages it received.
   */
  lemma FetchAllCharacterized<F>(fetch: int -> Response<F>)
    ensures var p := FetchAll(fetch);
            var n := p.requests;
            && n >= 1
            && (forall j | 0 <= j < n - 1 :: ContinuesAfter(fetch, j))
            && (p.Done? <==> StopsAt(fetch, n - 1))
            && (p.Aborted? <==> PageAt(fetch, n - 1).Failure?)
            && p.features == Collected(fetch, n)
  {
    PaginateFrom(fetch, 0);
  }

  // ---------------------------------------------------------------------
  // Scenarios
  // ---------------------------------------------------------------------

  function Pages3<F>(x: F): int -> Response<F> {
    offset =>
      if offset == 0 then Page(seq(2000, _ => x), false)
      else if offset == 2000 then Page(seq(2000, _ => x), true)
      else if offset == 4000 then Page(seq(500, _ => x), false)
      else Failure
  }

  /** Pages of 2000, 2000 (flag set) and 500 (no flag): 3 requests, 4500 features. */
  lemma ThreePageScenario<F>(x: F)
    ensures FetchAll(Pages3(x)) == Done(seq(4500, _ => x), 3)
  {
    var fetch := Pages3(x);
    var a, b, c := seq(2000, _ => x), seq(2000, _ => x), seq(500, _ => x);
    assert fetch(0) == Page(a, false);
    assert fetch(2000) == Page(b, true);
    assert fetch(4000) == Page(c, false);
    assert Paginate(fetch, 4000, a + b) == Done(a + b + c, 1);
    assert Paginate(fetch, 2000, a) == Done(a + b + c, 2);
    assert [] + a == a;
    assert Paginate(fetch, 0, []) == Done(a + b + c, 3);
    assert a + b + c == seq(4500, _ => x);
  }

  /** A service that always answers with one feature and the transfer flag. */
  function Trickle<F>(x: F): int -> Response<F> {
    offset => Page([x], true)
  }

  lemma {:induction false} TrickleFrom<F>(x: F, offset: int, acc: seq<F>)
    requires |acc| < SAFETY_LIMIT
    ensures Paginate(Trickle(x), offset, acc).Done?
    ensures Paginate(Trickle(x), offset, acc).requests == SAFETY_LIMIT - |acc|
    decreases SAFETY_LIMIT - |acc|
  {
    if |acc| + 1 < SAFETY_LIMIT {
      TrickleFrom(x, offset + PAGE_SIZE, acc + [x]);
    }
  }

  /**
   * The safety bound is on features, not pages: one-feature pages that keep
   * the transfer flag set cost 100000 requests, far beyond 50 pages.
   */
  lemma TrickleCostsLimitRequests<F>(x: F)
    ensures FetchAll(Trickle(x)).requests == SAFETY_LIMIT
  {
    TrickleFrom(x, 0, []);
  }

  /** A service that always answers with a full page. */
  function FullPages<F>(x: F): int -> Response<F> {
    offset => Page(seq(PAGE_SIZE, _ => x), false)
  }

  lemma {:induction false} FullPagesFrom<F>(x: F, offset: int, acc: seq<F>, j: nat)
    requires j < 50 && |acc| == j * PAGE_SIZE
    ensures Paginate(FullPages(x), offset, acc) == Done(Paginate(FullPages(x), offset, acc).features, 50 - j)
    decreases 50 - j
  {
    var page := seq(PAGE_SIZE, _ => x);
    assert |acc + page| == (j + 1) * PAGE_SIZE;
    if j + 1 < 50 {
      FullPagesFrom(x, offset + PAGE_SIZE, acc + page, j + 1);
    }
  }

  /** Only when every page is full does the 100000 limit mean 50 requests. */
  lemma FullPagesCostFiftyRequests<F>(x: F)
    ensures FetchAll(FullPages(x)).requests == 50
  {
    FullPagesFrom(x, 0, [], 0);
  }
}

=== FILE: pipeline.dfy ===
/**
 * `fetch_features` and `main`: discover fields, try the strategies, sort the
 * winning download newest first, transform it, and write one file per theft
 * type, an exception in either stage writing an empty file instead.
 */
module Pipeline {
  import opened Wrappers
  import opened Attributes
  import opened WhereClauses
  import opened Pagination
  import opened Strategies
  import opened StableSort
  import opened NewestFirst
  import opened Transform

  /** The `where` parameters, in the order `fetch_features` tries them. */
  function Wheres(clock: Clock, discovered: seq<string>): (ws: seq<string>)
    ensures 1 <= |ws| <= 4 && ws[|ws| - 1] == "1=1"
    ensures var cs := BuildWhereClauses(clock.cutoffYear, clock.cutoffMs, EffectiveFields(discovered));
            |ws| == |cs| && forall i | 0 <= i < |cs| :: ws[i] == Where(cs[i])
  {
    var cs := BuildWhereClauses(clock.cutoffYear, clock.cutoffMs, EffectiveFields(discovered));
    seq(|cs|, i requires 0 <= i < |cs| => Where(cs[i]))
  }

  /** What the strategy loop leaves in `all_features`. */
  function Fetched(clock: Clock, server: Server<Feature>, discovered: seq<string>): seq<Feature> {
    TryStrategies(server, Wheres(clock, discovered)).features
  }

  /**
   * `fetch_features(endpoint_url, theft_type)`: nothing when the strategies
   * leave nothing, otherwise the fetched features sorted newest first, or the
   * exception a sort key raised.
   */
  function FetchFeatures(clock: Clock, server: Server<Feature>, discovered: seq<string>)
    : (r: Result<seq<Feature>, ConversionError>)
    ensures var got := Fetched(clock, server, discovered);
            && (|got| == 0 ==> r == Ok([]))
            && (r.Ok? <==> forall i | 0 <= i < |got| :: SortKey(got[i].attributes).Ok?)
            && (r.Ok? ==> multiset(r.value) == multiset(got) && Sorted(r.value, KeyOf))
            && (|got| > 0 ==> r == SortNewestFirst(got))
  {
    var got := Fetched(clock, server, discovered);
    if |got| == 0 then Ok([]) else SortNewestFirst(got)
  }

  /** Fetched features with equal keys keep the order in which they were downloaded. */
  lemma FetchFeaturesStable(clock: Clock, server: Server<Feature>, discovered: seq<string>, k: real)
    requires FetchFeatures(clock, server, discovered).Ok?
    ensures WithKey(FetchFeatures(clock, server, discovered).value, KeyOf, k)
            == WithKey(Fetched(clock, server, discovered), KeyOf, k)
  {
    var got := Fetched(clock, server, discovered);
    if |got| > 0 {
      SortNewestFirstStable(got, k);
    }
  }

  /**
   * One iteration of `main`'s loop: the records saved for theft type `tt`.
   * An exception from fetching or transforming saves an empty list instead.
   */
  function RunTheftType(rt: Runtime, clock: Clock, server: Server<Feature>, discovered: seq<string>, tt: string)
    : (records: seq<Record>)
    ensures forall k | 0 <= k < |records| :: WellFormed(clock, tt, records[k])
    ensures |records| <= |Fetched(clock, server, discovered)|
  {
    match FetchFeatures(clock, server, discovered)
    case Err(_) => []
    case Ok(raw) =>
      assert |raw| == |Fetched(clock, server, discovered)| by {
        assert |multiset(raw)| == |multiset(Fetched(clock, server, discovered))|;
      }
      match ProcessFeatures(rt, clock, tt, raw)
      case Err(_) => []
      case Ok(records) => records
  }

  /**
   * The saved records are the accepted features of the sorted download, each
   * built as the record numbered by its position; any exception saves nothing.
   */
  lemma RunTheftTypeComposes(rt: Runtime, clock: Clock, server: Server<Feature>, discovered: seq<string>, tt: string)
    ensures var records := RunTheftType(rt, clock, server, discovered, tt);
            match FetchFeatures(clock, server, discovered)
            case Err(_) => records == []
            case Ok(raw) =>
              var gs := AcceptedFeatures(rt, clock, raw);
              && (BuildsAll(Build(rt, clock, tt), gs, 0) ==> records == BuiltAll(Build(rt, clock, tt), gs, 0))
              && (!BuildsAll(Build(rt, clock, tt), gs, 0) ==> records == [])
  {
    match FetchFeatures(clock, server, discovered)
    case Err(_) =>
    case Ok(raw) => ProcessFeaturesIsFilterThenBuild(rt, clock, tt, raw);
  }

  /** A service whose every request raises. */
  function Unreachable(): Server<Feature> {
    (where, offset) => Failure
  }

  /** When every request raises, every strategy is tried and an empty file is saved. */
  lemma UnreachableServiceSavesNothing(rt: Runtime, clock: Clock, discovered: seq<string>, tt: string)
    ensures TryStrategies(Unreachable(), Wheres(clock, discovered)).attempts == |Wheres(clock, discovered)|
    ensures RunTheftType(rt, clock, Unreachable(), discovered, tt) == []
  {
    var ws := Wheres(clock, discovered);
    forall j | 0 <= j < |ws| ensures !Succeeds(Unreachable(), ws[j]) {
      assert Attempt(Unreachable(), ws[j]) == Aborted([], 1);
    }
    NoSuccessKeepsLastPartial(Unreachable(), ws);
    assert Attempt(Unreachable(), ws[|ws| - 1]) == Aborted([], 1);
  }

  /** The two output files and the process exit status. */
  datatype Outcome = Outcome(auto: seq<Record>, bike: seq<Record>, exitCode: int)

  /**
   * `main()`: the auto endpoint, then the bike endpoint, each with its own
   * service and discovered fields; the exit status is 1 exactly when no
   * record at all was saved.
   */
  function Main(rt: Runtime, clock: Clock,
                autoServer: Server<Feature>, autoFields: seq<string>,
                bikeServer: Server<Feature>, bikeFields: seq<string>): (o: Outcome)
    ensures forall k | 0 <= k < |o.auto| :: WellFormed(clock, "auto", o.auto[k])
    ensures forall k | 0 <= k < |o.bike| :: WellFormed(clock, "bike", o.bike[k])
    ensures o.exitCode == 1 <==> |o.auto| + |o.bike| == 0
    ensures o.exitCode == 0 || o.exitCode == 1
    ensures o.auto == RunTheftType(rt, clock, autoServer, autoFields, "auto")
    ensures o.bike == RunTheftType(rt, clock, bikeServer, bikeFields, "bike")
  {
    var auto := RunTheftType(rt, clock, autoServer, autoFields, "auto");
    var bike := RunTheftType(rt, clock, bikeServer, bikeFields, "bike");
    Outcome(auto, bike, if |auto| + |bike| == 0 then 1 else 0)
  }

  /** With both services unreachable the run saves two empty files and exits with status 1. */
  lemma UnreachableServicesExitOne(rt: Runtime, clock: Clock, autoFields: seq<string>, bikeFields: seq<string>)
    ensures Main(rt, clock, Unreachable(), autoFields, Unreachable(), bikeFields) == Outcome([], [], 1)
  {
    UnreachableServiceSavesNothing(rt, clock, autoFields, "auto");
    UnreachableServiceSavesNothing(rt, clock, bikeFields, "bike");
  }
}

=== FILE: stable_sort.dfy ===
/**
 * A stable sort by a real-valued key, as Python's `list.sort(key=...)`
 * performs it: ascending keys, equal keys in their original order.
 */
module StableSort {

  predicate Sorted<T>(s: seq<T>, key: T -> real) {
    forall i, j | 0 <= i < j < |s| :: key(s[i]) <= key(s[j])
  }

  /** The elements of `s` whose key is `k`, in their order in `s`. */
  function WithKey<T>(s: seq<T>, key: T -> real, k: real): (r: seq<T>)
    ensures |r| <= |s|
  {
    if |s| == 0 then []
    else (if key(s[0]) == k then [s[0]] else []) + WithKey(s[1..], key, k)
  }

  lemma SortedCons<T>(h: T, t: seq<T>, key: T -> real)
    requires Sorted(t, key)
    requires forall j | 0 <= j < |t| :: key(h) <= key(t[j])
    ensures Sorted([h] + t, key)
  {
    var s := [h] + t;
    forall i, j | 0 <= i < j < |s| ensures key(s[i]) <= key(s[j]) {
      if i > 0 {
        assert s[i] == t[i - 1] && s[j] == t[j - 1];
      } else {
        assert s[j] == t[j - 1];
      }
    }
  }

  /** Inserts `x` before the first element whose key is not smaller. */
  function Insert<T>(x: T, s: seq<T>, key: T -> real): (r: seq<T>)
    ensures |r| == |s| + 1
  {
    if |s| == 0 then [x]
    else if key(x) <= key(s[0]) then [x] + s
    else [s[0]] + Insert(x, s[1..], key)
  }

  lemma {:induction false} InsertPermutes<T>(x: T, s: seq<T>, key: T -> real)
    ensures multiset(Insert(x, s, key)) == multiset(s) + multiset{x}
    decreases |s|
  {
    if |s| > 0 && key(x) > key(s[0]) {
      InsertPermutes(x, s[1..], key);
      assert s == [s[0]] + s[1..];
    }
  }

  lemma SortedTail<T>(s: seq<T>, key: T -> real)
    requires |s| > 0 && Sorted(s, key)
    ensures Sorted(s[1..], key)
  {
    var t := s[1..];
    forall i, j | 0 <= i < j < |t| ensures key(t[i]) <= key(t[j]) {
      assert t[i] == s[i + 1] && t[j] == s[j + 1];
    }
  }

  lemma InsertAfterSmaller<T>(x: T, s: seq<T>, key: T -> real, rest: seq<T>)
    requires |s| > 0 && key(s[0]) < key(x) && Sorted(s, key)
    requires multiset(rest) == multiset(s[1..]) + multiset{x}
    requires Sorted(rest, key)
    ensures Sorted([s[0]] + rest, key)
  {
    forall j | 0 <= j < |rest| ensures key(s[0]) <= key(rest[j]) {
      assert rest[j] in multiset(rest);
      if rest[j] != x {
        assert rest[j] in multiset(s[1..]);
        var m :| 0 <= m < |s[1..]| && s[1..][m] == rest[j];
        assert s[m + 1] == rest[j];
      }
    }
    SortedCons(s[0], rest, key);
  }

  lemma {:induction false} InsertSorted<T>(x: T, s: seq<T>, key: T -> real)
    requires Sorted(s, key)
    ensures Sorted(Insert(x, s, key), key)
    decreases |s|
  {
    if |s| == 0 {
    } else if key(x) <= key(s[0]) {
      SortedCons(x, s, key);
    } else {
      SortedTail(s, key);
      InsertSorted(x, s[1..], key);
      InsertPermutes(x, s[1..], key);
      InsertAfterSmaller(x, s, key, Insert(x, s[1..], key));
    }
  }

  function SortBy<T>(xs: seq<T>, key: T -> real): (r: seq<T>)
    ensures |r| == |xs|
    ensures multiset(r) == multiset(xs)
    ensures Sorted(r, key)
  {
    if |xs| == 0 then []
    else
      var rest := SortBy(xs[1..], key);
      InsertPermutes(xs[0], rest, key);
      InsertSorted(xs[0], rest, key);
      assert xs == [xs[0]] + xs[1..];
      Insert(xs[0], rest, key)
  }

  lemma WithKeyCons<T>(h: T, t: seq<T>, key: T -> real, k: real)
    ensures WithKey([h] + t, key, k) == (if key(h) == k then [h] else []) + WithKey(t, key, k)
  {
    assert ([h] + t)[1..] == t;
  }

  lemma SwapEmptyHead<T>(a: seq<T>, b: seq<T>, w: seq<T>)
    requires a == [] || b == []
    ensures a + (b + w) == b + (a + w)
  {
  }

  lemma {:induction false} InsertWithKey<T>(x: T, s: seq<T>, key: T -> real, k: real)
    ensures WithKey(Insert(x, s, key), key, k)
            == (if key(x) == k then [x] else []) + WithKey(s, key, k)
    decreases |s|
  {
    if |s| == 0 || key(x) <= key(s[0]) {
      assert Insert(x, s, key) == [x] + s;
      WithKeyCons(x, s, key, k);
    } else {
      var hx := if key(x) == k then [x] else [];
      var hs := if key(s[0]) == k then [s[0]] else [];
      var tail := Insert(x, s[1..], key);
      assert Insert(x, s, key) == [s[0]] + tail;
      InsertWithKey(x, s[1..], key, k);
      WithKeyCons(s[0], tail, key, k);
      assert [s[0]] + s[1..] == s;
      WithKeyCons(s[0], s[1..], key, k);
      SwapEmptyHead(hs, hx, WithKey(s[1..], key, k));
    }
  }

  /**
   * Stability: for every key, the elements carrying it appear in the sorted
   * result in exactly the order they had in the input.
   */
  lemma {:induction false} SortByStable<T>(xs: seq<T>, key: T -> real, k: real)
    ensures WithKey(SortBy(xs, key), key, k) == WithKey(xs, key, k)
    decreases |xs|
  {
    if |xs| > 0 {
      SortByStable(xs[1..], key, k);
      InsertWithKey(xs[0], SortBy(xs[1..], key), key, k);
    }
  }
}

=== FILE: strategies.dfy ===
/**
 * The strategy loop of `fetch_features`: each WHERE predicate in turn is
 * downloaded from scratch until one yields at least one feature.
 */
module Strategies {
  import opened Pagination

  /** The feature service: (where predicate, offset) to the page it answers. */
  type Server<F> = (string, int) -> Response<F>

  function Query<F>(server: Server<F>, where: string): int -> Response<F> {
    offset => server(where, offset)
  }

  /** The download of one strategy, started with an empty accumulator. */
  function Attempt<F>(server: Server<F>, where: string): Paged<F> {
    FetchAll(Query(server, where))
  }

  /** A strategy works when its pagination completes with at least one feature. */
  predicate Succeeds<F>(server: Server<F>, where: string) {
    var p := Attempt(server, where);
    p.Done? && |p.features| > 0
  }

  /** The value of `all_features` after the loop, and how many strategies ran. */
  datatype Fallback<F> = Fallback(features: seq<F>, attempts: nat)

  /**
   * The loop over the remaining strategies; `carried` is what `all_features`
   * holds after the strategy before them.
   */
  function TryFrom<F>(server: Server<F>, wheres: seq<string>, carried: seq<F>): (r: Fallback<F>)
    ensures |wheres| == 0 ==> r == Fallback(carried, 0)
    ensures |wheres| > 0 ==> 1 <= r.attempts <= |wheres|
    ensures |wheres| > 0 ==> r.features == Attempt(server, wheres[r.attempts - 1]).features
    ensures |wheres| > 0 ==> r.attempts == |wheres| || Succeeds(server, wheres[r.attempts - 1])
    ensures forall j | 0 <= j < r.attempts - 1 :: !Succeeds(server, wheres[j])
  {
    if |wheres| == 0 then Fallback(carried, 0)
    else
      var p := Attempt(server, wheres[0]);
      if p.Done? && |p.features| > 0 then Fallback(p.features, 1)
      else
        // a failed or empty strategy leaves its (partial) pages in all_features
        var rest := TryFrom(server, wheres[1..], p.features);
        assert forall j | 1 <= j < |wheres| :: wheres[j] == wheres[1..][j - 1];
        Fallback(rest.features, rest.attempts + 1)
  }

  /**
   * `fetch_features`' strategy loop: strategies run in order until one
   * completes with a feature, and the features are those of the last one run.
   */
  function TryStrategies<F>(server: Server<F>, wheres: seq<string>): (r: Fallback<F>)
    ensures |wheres| == 0 ==> r == Fallback([], 0)
    ensures |wheres| > 0 ==> 1 <= r.attempts <= |wheres|
    ensures |wheres| > 0 ==> r.features == Attempt(server, wheres[r.attempts - 1]).features
    ensures |wheres| > 0 ==> r.attempts == |wheres| || Succeeds(server, wheres[r.attempts - 1])
    ensures forall j | 0 <= j < r.attempts - 1 :: !Succeeds(server, wheres[j])
  {
    TryFrom(server, wheres, [])
  }

  lemma {:induction false} FirstSuccessFrom<F>(server: Server<F>, wheres: seq<string>, carried: seq<F>, i: nat)
    requires i < |wheres| && Succeeds(server, wheres[i])
    requires forall j | 0 <= j < i :: !Succeeds(server, wheres[j])
    ensures TryFrom(server, wheres, carried) == Fallback(Attempt(server, wheres[i]).features, i + 1)
    decreases i
  {
    if i > 0 {
      assert !Succeeds(server, wheres[0]);
      assert forall j | 0 <= j < i - 1 :: wheres[1..][j] == wheres[j + 1];
      FirstSuccessFrom(server, wheres[1..], Attempt(server, wheres[0]).features, i - 1);
    }
  }

  /**
   * The first strategy whose download completes with a feature supplies the
   * result, and no strategy after it is attempted.
   */
  lemma FirstSuccessWins<F>(server: Server<F>, wheres: seq<string>, i: nat)
    requires i < |wheres| && Succeeds(server, wheres[i])
    requires forall j | 0 <= j < i :: !Succeeds(server, wheres[j])
    ensures TryStrategies(server, wheres) == Fallback(Attempt(server, wheres[i]).features, i + 1)
  {
    FirstSuccessFrom(server, wheres, [], i);
  }

  lemma {:induction false} NoSuccessFrom<F>(server: Server<F>, wheres: seq<string>, carried: seq<F>)
    requires |wheres| > 0
    requires forall j | 0 <= j < |wheres| :: !Succeeds(server, wheres[j])
    ensures TryFrom(server, wheres, carried)
            == Fallback(Attempt(server, wheres[|wheres| - 1]).features, |wheres|)
    decreases |wheres|
  {
    assert !Succeeds(server, wheres[0]);
    if |wheres| > 1 {
      var rest := wheres[1..];
      assert forall j | 0 <= j < |rest| :: rest[j] == wheres[j + 1];
      NoSuccessFrom(server, rest, Attempt(server, wheres[0]).features);
      assert rest[|rest| - 1] == wheres[|wheres| - 1];
    }
  }

  /**
   * When no strategy works every one is attempted and the result is what the
   * last one left behind: nothing, unless it raised after some pages, in
   * which case those partial pages are returned.
   */
  lemma NoSuccessKeepsLastPartial<F>(server: Server<F>, wheres: seq<string>)
    requires |wheres| > 0
    requires forall j | 0 <= j < |wheres| :: !Succeeds(server, wheres[j])
    ensures var r := TryStrategies(server, wheres);
            && r.attempts == |wheres|
            && r.features == Attempt(server, wheres[|wheres| - 1]).features
            && (|r.features| > 0 ==> Attempt(server, wheres[|wheres| - 1]).Aborted?)
  {
    NoSuccessFrom(server, wheres, []);
  }

  /** A service where the first two predicates match nothing and the third matches ten features. */
  function TenOnThird<F>(x: F): Server<F> {
    (where, offset) =>
      if where == "third" && offset == 0 then Page(seq(10, _ => x), false)
      else Page([], false)
  }

  lemma TenOnThirdScenario<F>(x: F)
    ensures TryStrategies(TenOnThird(x), ["first", "second", "third"]) == Fallback(seq(10, _ => x), 3)
  {
    var server := TenOnThird(x);
    var wheres := ["first", "second", "third"];
    assert Attempt(server, "first") == Done([], 1);
    assert Attempt(server, "second") == Done([], 1);
    assert Attempt(server, "third") == Done([] + seq(10, _ => x), 1);
    FirstSuccessWins(server, wheres, 2);
  }
}

=== FILE: text.dfy ===
/**
 * The Python built-ins the ETL script leans on for text: `str.isspace`,
 * `str.strip`, `str(int)`, `int(str)` and the zero-padded `{n:0Wd}` format.
 */
module Text {
  import opened Wrappers

  predicate IsDigit(c: char) {
    '0' <= c <= '9'
  }

  function DigitValue(c: char): nat
    requires IsDigit(c)
  {
    c as int - '0' as int
  }

  function DigitChar(d: nat): (c: char)
    requires d < 10
    ensures IsDigit(c) && DigitValue(c) == d
  {
    ('0' as int + d) as char
  }

  predicate AllDigits(s: string) {
    forall i | 0 <= i < |s| :: IsDigit(s[i])
  }

  /** Python's `str.isspace()` on one character (the complete Unicode list). */
  predicate IsSpace(c: char) {
    var n := c as int;
    || n == 0x20 || 0x09 <= n <= 0x0D || 0x1C <= n <= 0x1F || n == 0x85 || n == 0xA0
    || n == 0x1680 || 0x2000 <= n <= 0x200A || n == 0x2028 || n == 0x2029
    || n == 0x202F || n == 0x205F || n == 0x3000
  }

  /** The first index from `lo` on whose character is not `ws`, or |s|. */
  function SkipStart(ws: char -> bool, s: string, lo: nat): (k: nat)
    requires lo <= |s|
    ensures lo <= k <= |s|
    ensures forall i | lo <= i < k :: ws(s[i])
    ensures k < |s| ==> !ws(s[k])
    decreases |s| - lo
  {
    if lo < |s| && ws(s[lo]) then SkipStart(ws, s, lo + 1) else lo
  }

  /** The end of `s[lo..hi]` once trailing `ws` characters are dropped. */
  function SkipEnd(ws: char -> bool, s: string, lo: nat, hi: nat): (k: nat)
    requires lo <= hi <= |s|
    ensures lo <= k <= hi
    ensures forall i | k <= i < hi :: ws(s[i])
    ensures k > lo ==> !ws(s[k - 1])
    decreases hi
  {
    if hi > lo && ws(s[hi - 1]) then SkipEnd(ws, s, lo, hi - 1) else hi
  }

  /**
   * `r` is the slice of `s` starting at `lo` that neither starts nor ends with
   * a `ws` character, everything cut away on either side being `ws`.
   */
  predicate TrimmedOf(ws: char -> bool, s: string, lo: nat, r: string) {
    && lo + |r| <= |s|
    && r == s[lo..lo + |r|]
    && (|r| > 0 ==> !ws(r[0]) && !ws(r[|r| - 1]))
    && (forall i | 0 <= i < lo :: ws(s[i]))
    && (forall i | lo + |r| <= i < |s| :: ws(s[i]))
  }

  /** `s` without the `ws` characters at either end. */
  function Trim(ws: char -> bool, s: string): (r: string)
    ensures TrimmedOf(ws, s, SkipStart(ws, s, 0), r)
  {
    var lo := SkipStart(ws, s, 0);
    s[lo..SkipEnd(ws, s, lo, |s|)]
  }

  lemma TrimKeeps(ws: char -> bool, s: string)
    requires |s| > 0 ==> !ws(s[0]) && !ws(s[|s| - 1])
    ensures Trim(ws, s) == s
  {
    assert SkipStart(ws, s, 0) == 0;
    assert SkipEnd(ws, s, 0, |s|) == |s|;
  }

  /** The number of whitespace characters `str.strip()` cuts from the front. */
  function LeadingSpace(s: string): nat {
    SkipStart(IsSpace, s, 0)
  }

  /**
   * Python's `str.strip()`: the longest slice of `s` that neither starts nor
   * ends with whitespace, everything cut away being whitespace.
   */
  function Strip(s: string): (r: string)
    ensures TrimmedOf(IsSpace, s, LeadingSpace(s), r)
  {
    Trim(IsSpace, s)
  }

  lemma StripKeepsTrimmed(s: string)
    requires |s| > 0 ==> !IsSpace(s[0]) && !IsSpace(s[|s| - 1])
    ensures Strip(s) == s
  {
    TrimKeeps(IsSpace, s);
  }

  lemma StripIdempotent(s: string)
    ensures Strip(Strip(s)) == Strip(s)
  {
    StripKeepsTrimmed(Strip(s));
  }

  /**
   * The whitespace `int()` skips around a numeral: ASCII tab to carriage
   * return and space, and the non-ASCII `str.isspace` characters. The four
   * ASCII separators U+001C..U+001F count for `str.strip()` but not here.
   */
  predicate IsIntSpace(c: char) {
    IsSpace(c) && !(0x1C <= c as int <= 0x1F)
  }

  // ---------------------------------------------------------------------
  // Decimal numerals
  // ---------------------------------------------------------------------

  /** The value of a string of decimal digits, most significant first. */
  function DigitsValue(s: string): nat
    requires AllDigits(s)
  {
    if |s| == 0 then 0 else DigitsValue(s[..|s| - 1]) * 10 + DigitValue(s[|s| - 1])
  }

  function Pow10(k: nat): nat {
    if k == 0 then 1 else 10 * Pow10(k - 1)
  }

  /** Python's `str(n)` for n >= 0: shortest numeral, read back as n. */
  function NatToString(n: nat): (r: string)
    ensures |r| >= 1 && AllDigits(r)
    ensures |r| > 1 ==> r[0] != '0'
    ensures DigitsValue(r) == n
  {
    if n < 10 then [DigitChar(n)]
    else
      var p := NatToString(n / 10);
      var r := p + [DigitChar(n % 10)];
      assert r[..|r| - 1] == p;
      r
  }

  lemma {:induction false} NatToStringLength(n: nat, k: nat)
    requires 1 <= k && n < Pow10(k)
    ensures |NatToString(n)| <= k
    decreases k
  {
    if n >= 10 {
      NatToStringLength(n / 10, k - 1);
    }
  }

  /** Python's `str(i)` for any int. */
  function IntToString(i: int): (r: string)
    ensures |r| >= 1
    ensures i < 0 <==> r[0] == '-'
  {
    if i < 0 then "-" + NatToString(-i) else NatToString(i)
  }

  lemma {:induction false} LeadingZero(s: string)
    ensures AllDigits(s) ==> AllDigits(['0'] + s) && DigitsValue(['0'] + s) == DigitsValue(s)
    decreases |s|
  {
    var t := ['0'] + s;
    if !AllDigits(s) {
    } else if |s| > 0 {
      assert t[..|t| - 1] == ['0'] + s[..|s| - 1];
      LeadingZero(s[..|s| - 1]);
    } else {
      assert t[..|t| - 1] == [];
    }
  }

  lemma {:induction false} LeadingZeros(zeros: string, s: string)
    requires forall i | 0 <= i < |zeros| :: zeros[i] == '0'
    ensures AllDigits(s) ==> AllDigits(zeros + s) && DigitsValue(zeros + s) == DigitsValue(s)
    decreases |zeros|
  {
    if |zeros| > 0 {
      LeadingZeros(zeros[1..], s);
      LeadingZero(zeros[1..] + s);
      assert zeros + s == ['0'] + (zeros[1..] + s);
    } else {
      assert zeros + s == s;
    }
  }

  /** Left-pads a numeral with '0' up to `width` characters. */
  function ZeroPad(s: string, width: int): (r: string)
    ensures |r| == if |s| >= width then |s| else width
    ensures r[|r| - |s|..] == s
    ensures forall i | 0 <= i < |r| - |s| :: r[i] == '0'
    ensures AllDigits(s) ==> AllDigits(r) && DigitsValue(r) == DigitsValue(s)
  {
    if |s| >= width then s
    else
      var zeros := seq(width - |s|, _ => '0');
      LeadingZeros(zeros, s);
      zeros + s
  }

  /** Python's `format(n, '0{width}d')`: a minus sign, then zero padding. */
  function FormatInt(n: int, width: int): (r: string)
  {
    if n < 0 then "-" + ZeroPad(NatToString(-n), width - 1)
    else ZeroPad(NatToString(n), width)
  }

  lemma FormatIntFixedWidth(n: nat, width: nat)
    requires 1 <= width && n < Pow10(width)
    ensures |FormatInt(n, width)| == width
    ensures AllDigits(FormatInt(n, width)) && DigitsValue(FormatInt(n, width)) == n
  {
    NatToStringLength(n, width);
  }

  // ---------------------------------------------------------------------
  // Python int() on a str
  // ---------------------------------------------------------------------

  /** Decimal digits with single underscores between them, as `int()` accepts. */
  predicate IsDigitRun(s: string) {
    && |s| > 0 && IsDigit(s[0]) && IsDigit(s[|s| - 1])
    && (forall i | 0 <= i < |s| :: IsDigit(s[i]) || s[i] == '_')
    && (forall i, j | 0 <= i < |s| && 0 <= j < |s| && j == i + 1 :: s[i] != '_' || s[j] != '_')
  }

  /** The digits of a digit run, its underscores removed. */
  function DropUnderscores(s: string): string {
    if |s| == 0 then []
    else (if s[0] == '_' then [] else [s[0]]) + DropUnderscores(s[1..])
  }

  lemma {:induction false} DropUnderscoresDigits(s: string)
    requires forall i | 0 <= i < |s| :: IsDigit(s[i]) || s[i] == '_'
    ensures AllDigits(DropUnderscores(s))
    decreases |s|
  {
    if |s| > 0 {
      DropUnderscoresDigits(s[1..]);
    }
  }

  lemma {:induction false} DropUnderscoresOfDigits(s: string)
    requires AllDigits(s)
    ensures DropUnderscores(s) == s
    decreases |s|
  {
    if |s| > 0 {
      DropUnderscoresOfDigits(s[1..]);
      assert s == [s[0]] + s[1..];
    }
  }

  function ParseUnsigned(s: string): Option<nat> {
    if IsDigitRun(s) then
      DropUnderscoresDigits(s);
      Some(DigitsValue(DropUnderscores(s)))
    else None
  }

  /** An optional sign, then a digit run, in text with no surrounding whitespace. */
  function ParseSigned(t: string): Option<int> {
    if |t| > 0 && (t[0] == '-' || t[0] == '+') then
      match ParseUnsigned(t[1..])
      case Some(n) => var v: int := n; Some(if t[0] == '-' then -v else v)
      case None => None
    else
      match ParseUnsigned(t)
      case Some(n) => Some(n)
      case None => None
  }

  /** A character a numeral can start with. */
  predicate NumeralStart(c: char) {
    IsDigit(c) || c == '-' || c == '+'
  }

  /**
   * Python's `int(s)` for a str: surrounding `int()` whitespace is ignored, an
   * optional sign, then ASCII digits; None stands for the ValueError.
   */
  function ParseInt(s: string): (r: Option<int>)
    ensures r.Some? ==> SkipStart(IsIntSpace, s, 0) < |s|
    ensures r.Some? ==> NumeralStart(s[SkipStart(IsIntSpace, s, 0)])
    ensures r.Some? && r.value < 0 ==> s[SkipStart(IsIntSpace, s, 0)] == '-'
  {
    ParseSigned(Trim(IsIntSpace, s))
  }

  /** Text that starts with neither whitespace, a sign nor a digit is no integer. */
  lemma ParseIntRejects(s: string)
    requires |s| > 0 && !IsIntSpace(s[0]) && !NumeralStart(s[0])
    ensures ParseInt(s) == None
  {
    assert SkipStart(IsIntSpace, s, 0) == 0;
  }

  /** A leading U+001C is dropped by `str.strip()` but makes `int()` raise. */
  lemma FileSeparatorOnlyStripped()
    ensures Strip([0x1C as char, '5']) == "5"
    ensures ParseInt([0x1C as char, '5']) == None
  {
    var s := [0x1C as char, '5'];
    assert SkipStart(IsSpace, s, 0) == 1;
    assert SkipEnd(IsSpace, s, 1, 2) == 2;
    ParseIntRejects(s);
  }

  lemma ParseUnsignedOfDigits(d: string)
    requires |d| > 0 && AllDigits(d)
    ensures ParseUnsigned(d) == Some(DigitsValue(d))
  {
    assert IsDigitRun(d);
    DropUnderscoresOfDigits(d);
  }

  /** `int(d)` of a non-empty run of digits is its value. */
  lemma ParseDigits(d: string)
    requires |d| > 0 && AllDigits(d)
    ensures ParseInt(d) == Some(DigitsValue(d) as int)
  {
    assert IsDigit(d[0]) && IsDigit(d[|d| - 1]);
    TrimKeeps(IsIntSpace, d);
    ParseSignedDigits(d);
  }

  lemma ParseSignedDigits(d: string)
    requires |d| > 0 && AllDigits(d)
    ensures ParseSigned(d) == Some(DigitsValue(d) as int)
  {
    assert IsDigit(d[0]);
    ParseUnsignedOfDigits(d);
  }

  lemma ParseSignedNegated(t: string, d: string)
    requires |d| > 0 && AllDigits(d)
    requires |t| > 0 && t[0] == '-' && t[1..] == d
    ensures ParseSigned(t) == Some(0 - DigitsValue(d) as int)
  {
    ParseUnsignedOfDigits(d);
  }

  /** `int("-" + d)` of a non-empty run of digits is minus its value. */
  lemma ParseNegatedDigits(d: string)
    requires |d| > 0 && AllDigits(d)
    ensures ParseInt("-" + d) == Some(0 - DigitsValue(d) as int)
  {
    var s := "-" + d;
    assert s[|s| - 1] == d[|d| - 1] && IsDigit(d[|d| - 1]);
    TrimKeeps(IsIntSpace, s);
    assert s[1..] == d;
    ParseSignedNegated(s, d);
  }

  /** `int(s)` of a numeral with an optional leading minus sign. */
  lemma ParseSignedNumeral(s: string, d: string, negative: bool)
    requires |d| > 0 && AllDigits(d)
    requires s == if negative then "-" + d else d
    ensures ParseInt(s) == Some(if negative then 0 - DigitsValue(d) as int else DigitsValue(d) as int)
  {
    if negative {
      ParseNegatedDigits(d);
    } else {
      ParseDigits(d);
    }
  }

  lemma ParseIntOfIntToString(i: int)
    ensures ParseInt(IntToString(i)) == Some(i)
  {
    if i < 0 {
      ParseSignedNumeral(IntToString(i), NatToString(-i), true);
    } else {
      ParseSignedNumeral(IntToString(i), NatToString(i), false);
    }
  }

  lemma ParseIntOfFormatInt(n: int, width: int)
    ensures ParseInt(FormatInt(n, width)) == Some(n)
  {
    if n < 0 {
      ParseSignedNumeral(FormatInt(n, width), ZeroPad(NatToString(-n), width - 1), true);
    } else {
      ParseSignedNumeral(FormatInt(n, width), ZeroPad(NatToString(n), width), false);
    }
  }

  /** SkipStart stops at the first non-`ws` character when everything before it is `ws`. */
  lemma {:induction false} SkipStartAt(ws: char -> bool, s: string, lo: nat, k: nat)
    requires lo <= k < |s| && !ws(s[k])
    requires forall i | lo <= i < k :: ws(s[i])
    ensures SkipStart(ws, s, lo) == k
    decreases k - lo
  {
    if lo < k {
      SkipStartAt(ws, s, lo + 1, k);
    }
  }

  /** SkipEnd stops after the last non-`ws` character when everything after it is `ws`. */
  lemma {:induction false} SkipEndAt(ws: char -> bool, s: string, lo: nat, hi: nat, k: nat)
    requires lo < k <= hi <= |s| && !ws(s[k - 1])
    requires forall i | k <= i < hi :: ws(s[i])
    ensures SkipEnd(ws, s, lo, hi) == k
    decreases hi
  {
    if k < hi {
      SkipEndAt(ws, s, lo, hi - 1, k);
    }
  }

  /** Trimming `w1 + t + w2` gives `t` when the padding is all `ws` and `t` has no `ws` at its ends. */
  lemma TrimPadded(ws: char -> bool, w1: string, t: string, w2: string)
    requires |t| > 0 && !ws(t[0]) && !ws(t[|t| - 1])
    requires forall i | 0 <= i < |w1| :: ws(w1[i])
    requires forall i | 0 <= i < |w2| :: ws(w2[i])
    ensures Trim(ws, w1 + t + w2) == t
  {
    var s := w1 + t + w2;
    var lo, hi := |w1|, |w1| + |t|;
    assert forall i | 0 <= i < lo :: s[i] == w1[i];
    assert forall i | hi <= i < |s| :: s[i] == w2[i - hi];
    assert s[lo] == t[0] && s[hi - 1] == t[|t| - 1];
    SkipStartAt(ws, s, 0, lo);
    SkipEndAt(ws, s, lo, |s|, hi);
    assert s[lo..hi] == t;
  }

  /** `int()` reads any integer's decimal text back, whatever `int()` whitespace surrounds it. */
  lemma ParseIntPadded(w1: string, i: int, w2: string)
    requires forall k | 0 <= k < |w1| :: IsIntSpace(w1[k])
    requires forall k | 0 <= k < |w2| :: IsIntSpace(w2[k])
    ensures ParseInt(w1 + IntToString(i) + w2) == Some(i)
  {
    var t := IntToString(i);
    ParseIntOfIntToString(i);
    assert IsDigit(t[|t| - 1]);
    assert IsDigit(t[0]) || t[0] == '-';
    TrimKeeps(IsIntSpace, t);
    TrimPadded(IsIntSpace, w1, t, w2);
  }

  /** `int("+" + d)` of a non-empty run of digits is its value. */
  lemma ParsePlusDigits(d: string)
    requires |d| > 0 && AllDigits(d)
    ensures ParseInt("+" + d) == Some(DigitsValue(d) as int)
  {
    var s := "+" + d;
    assert s[|s| - 1] == d[|d| - 1] && IsDigit(d[|d| - 1]);
    TrimKeeps(IsIntSpace, s);
    assert s[1..] == d;
    ParseUnsignedOfDigits(d);
  }

  lemma {:induction false} DropUnderscoresAppend(x: string, y: string)
    ensures DropUnderscores(x + y) == DropUnderscores(x) + DropUnderscores(y)
    decreases |x|
  {
    if |x| == 0 {
      assert x + y == y;
    } else {
      var head := if x[0] == '_' then [] else [x[0]];
      assert (x + y)[0] == x[0];
      assert (x + y)[1..] == x[1..] + y;
      DropUnderscoresAppend(x[1..], y);
      assert DropUnderscores(x + y) == head + (DropUnderscores(x[1..]) + DropUnderscores(y));
    }
  }

  lemma AllDigitsAppend(a: string, b: string)
    requires AllDigits(a) && AllDigits(b)
    ensures AllDigits(a + b)
  {
    assert forall i | 0 <= i < |a| :: (a + b)[i] == a[i];
    assert forall i | |a| <= i < |a + b| :: (a + b)[i] == b[i - |a|];
  }

  /** Two non-empty digit runs joined by one underscore form a digit run. */
  lemma UnderscoredRun(a: string, b: string)
    requires |a| > 0 && AllDigits(a) && |b| > 0 && AllDigits(b)
    ensures IsDigitRun(a + "_" + b)
  {
    var s := a + "_" + b;
    assert forall i | 0 <= i < |a| :: s[i] == a[i];
    assert forall i | |a| + 1 <= i < |s| :: s[i] == b[i - |a| - 1];
    assert s[|a|] == '_';
  }

  /** Dropping the one underscore between two digit runs joins them. */
  lemma UnderscoredDigits(a: string, b: string)
    requires AllDigits(a) && AllDigits(b)
    ensures DropUnderscores(a + "_" + b) == a + b
  {
    DropUnderscoresAppend(a + "_", b);
    DropUnderscoresAppend(a, "_");
    DropUnderscoresOfDigits(a);
    DropUnderscoresOfDigits(b);
    assert DropUnderscores("_") == [];
  }

  /** One underscore between two runs of digits is accepted and ignored. */
  lemma ParseUnderscoredDigits(a: string, b: string)
    requires |a| > 0 && AllDigits(a) && |b| > 0 && AllDigits(b)
    ensures AllDigits(a + b)
    ensures ParseInt(a + "_" + b) == Some(DigitsValue(a + b) as int)
  {
    var s := a + "_" + b;
    AllDigitsAppend(a, b);
    UnderscoredRun(a, b);
    UnderscoredDigits(a, b);
    assert s[0] == a[0] && s[|s| - 1] == b[|b| - 1];
    TrimKeeps(IsIntSpace, s);
    assert ParseUnsigned(s) == Some(DigitsValue(a + b));
  }

  lemma IntToStringInjective(a: int, b: int)
    requires IntToString(a) == IntToString(b)
    ensures a == b
  {
    ParseIntOfIntToString(a);
    ParseIntOfIntToString(b);
  }
}

=== FILE: transform.dfy ===
/**
 * `process_features`: each raw feature is validated (coordinates inside the
 * Ontario box, year/month not before the cutoff) and turned into a clean
 * record tagged with its theft type.
 */
module Transform {
  import opened Wrappers
  import opened Text
  import opened Attributes
  import opened Dates

  // FIELD_MAP: candidate attribute names per logical field, in priority order.
  const ID_FIELDS: seq<string> := ["EVENT_UNIQUE_ID", "OBJECTID"]
  const DATE_FIELDS: seq<string> := ["OCC_DATE", "REPORT_DATE"]
  const YEAR_FIELDS: seq<string> := ["OCC_YEAR"]
  const MONTH_FIELDS: seq<string> := ["OCC_MONTH"]
  const DAY_FIELDS: seq<string> := ["OCC_DAY", "OCC_DOW"]
  const HOUR_FIELDS: seq<string> := ["OCC_HOUR"]
  const NEIGHBOURHOOD_FIELDS: seq<string> := ["NEIGHBOURHOOD_158", "NEIGHBOURHOOD_140", "HOOD_158", "NEIGHBOURHOOD"]
  const PREMISE_FIELDS: seq<string> := ["PREMISES_TYPE", "PREMISE_TYPE"]
  const LAT_FIELDS: seq<string> := ["LAT_WGS84", "Y"]
  const LNG_FIELDS: seq<string> := ["LONG_WGS84", "X"]
  const STATUS_FIELDS: seq<string> := ["STATUS"]

  /** One clean record as written to the output JSON. */
  datatype Record = Record(
    id: string, theftType: string, date: string,
    year: int, month: int, day: int, hour: int,
    neighbourhood: string, premiseType: string,
    lat: real, lng: real, status: string)

  // ---------------------------------------------------------------------
  // Coordinates
  // ---------------------------------------------------------------------

  /** `float(v) if v is not None else 0.0`. */
  function FloatOrZero(rt: Runtime, v: Value): Result<real, ConversionError> {
    if v.Null? then Ok(0.0) else ToFloat(rt, v)
  }

  /** The geometry's (y, x) pair; a missing or empty geometry gives None for both. */
  function GeometryPoint(f: Feature): (Value, Value) {
    if |f.geometry| > 0 then (Get(f.geometry, "y"), Get(f.geometry, "x")) else (Null, Null)
  }

  /** The raw (lat, lng) values: geometry unless either is None, else the attribute fields. */
  function RawCoordinates(f: Feature): (Value, Value) {
    var (gy, gx) := GeometryPoint(f);
    if gy.Null? || gx.Null? then (FirstOf(f.attributes, LAT_FIELDS, Null), FirstOf(f.attributes, LNG_FIELDS, Null))
    else (gy, gx)
  }

  /** Coordinates as floats; when either conversion raises both become 0.0. */
  function Coordinates(rt: Runtime, f: Feature): (c: (real, real))
    ensures FloatOrZero(rt, RawCoordinates(f).0).Ok? && FloatOrZero(rt, RawCoordinates(f).1).Ok?
            ==> c == (FloatOrZero(rt, RawCoordinates(f).0).value, FloatOrZero(rt, RawCoordinates(f).1).value)
    ensures FloatOrZero(rt, RawCoordinates(f).0).Err? || FloatOrZero(rt, RawCoordinates(f).1).Err?
            ==> c == (0.0, 0.0)
  {
    var (lat, lng) := RawCoordinates(f);
    var a, b := FloatOrZero(rt, lat), FloatOrZero(rt, lng);
    if a.Ok? && b.Ok? then (a.value, b.value) else (0.0, 0.0)
  }

  /** Not (0, 0), and roughly within Ontario. */
  predicate ValidLocation(lat: real, lng: real) {
    && !(lat == 0.0 && lng == 0.0)
    && 41.0 <= lat <= 57.0 && -95.0 <= lng <= -73.0
  }

  lemma GeometryPreferred(rt: Runtime, f: Feature)
    requires |f.geometry| > 0
    requires IsNumber(Get(f.geometry, "y")) && IsNumber(Get(f.geometry, "x"))
    ensures Coordinates(rt, f) == (AsReal(Get(f.geometry, "y")), AsReal(Get(f.geometry, "x")))
  {
  }

  lemma AttributesWhenGeometryIncomplete(rt: Runtime, f: Feature)
    requires Get(f.geometry, "y").Null? || Get(f.geometry, "x").Null?
    requires IsNumber(Get(f.attributes, "LAT_WGS84")) && IsNumber(Get(f.attributes, "LONG_WGS84"))
    ensures Coordinates(rt, f)
            == (AsReal(Get(f.attributes, "LAT_WGS84")), AsReal(Get(f.attributes, "LONG_WGS84")))
  {
    FirstOfEarliest(f.attributes, LAT_FIELDS, Null, 0);
    FirstOfEarliest(f.attributes, LNG_FIELDS, Null, 0);
  }

  /** With neither a geometry nor a latitude field the latitude reads as 0, which is rejected. */
  lemma MissingLatitudeRejected(rt: Runtime, f: Feature)
    requires |f.geometry| == 0
    requires NoneOf(f.attributes, LAT_FIELDS)
    ensures Coordinates(rt, f).0 == 0.0
    ensures !ValidLocation(Coordinates(rt, f).0, Coordinates(rt, f).1)
  {
  }

  // ---------------------------------------------------------------------
  // Field extraction and the window
  // ---------------------------------------------------------------------

  // The values `_first_of` picks for the record, with their defaults.

  function RawDate(attrs: Attrs): Value {
    FirstOf(attrs, DATE_FIELDS, Str(""))
  }

  function YearValue(clock: Clock, attrs: Attrs): (v: Value)
    ensures !v.Null?
  {
    FirstOf(attrs, YEAR_FIELDS, Int(clock.currentYear))
  }

  function MonthValue(attrs: Attrs): Value {
    FirstOf(attrs, MONTH_FIELDS, Int(1))
  }

  function DayValue(attrs: Attrs): Value {
    FirstOf(attrs, DAY_FIELDS, Int(1))
  }

  function HourValue(attrs: Attrs): Value {
    FirstOf(attrs, HOUR_FIELDS, Int(12))
  }

  function NeighbourhoodValue(attrs: Attrs): Value {
    FirstOf(attrs, NEIGHBOURHOOD_FIELDS, Str("Unknown"))
  }

  function PremiseValue(attrs: Attrs): Value {
    FirstOf(attrs, PREMISE_FIELDS, Str("Unknown"))
  }

  function StatusValue(attrs: Attrs): Value {
    FirstOf(attrs, STATUS_FIELDS, Str("Unknown"))
  }

  /** The id value: EVENT_UNIQUE_ID, then OBJECTID, then the count of records kept so far. */
  function RecordId(attrs: Attrs, kept: nat): Value {
    FirstOf(attrs, ID_FIELDS, Str(NatToString(kept)))
  }

  function CutoffStamp(clock: Clock): int {
    clock.cutoffYear * 100 + clock.cutoffMonth
  }

  /** `int(year) if year else 0`. */
  function WindowYear(year: Value): Result<int, ConversionError> {
    if Truthy(year) then ToInt(year) else Ok(0)
  }

  /** (year, month) is not before (cutoff year, cutoff month). */
  predicate NotBefore(year: int, month: int, cutoffYear: int, cutoffMonth: int) {
    year > cutoffYear || (year == cutoffYear && month >= cutoffMonth)
  }

  /**
   * The window test: year * 100 + month against the cutoff. The month is
   * already an int, so `int(month) if month else 0` is the month itself. A
   * failed conversion of the year keeps the feature; with months of at most
   * two digits the test is the calendar order of (year, month).
   */
  function InWindow(clock: Clock, attrs: Attrs): (kept: bool)
    ensures WindowYear(YearValue(clock, attrs)).Err? ==> kept
    ensures WindowYear(YearValue(clock, attrs)).Ok? ==>
              (kept <==> WindowYear(YearValue(clock, attrs)).value * 100 + ParseMonth(MonthValue(attrs))
                         >= CutoffStamp(clock))
    ensures WindowYear(YearValue(clock, attrs)).Ok?
            && 0 <= ParseMonth(MonthValue(attrs)) < 100 && 0 <= clock.cutoffMonth < 100
            ==> (kept <==> NotBefore(WindowYear(YearValue(clock, attrs)).value, ParseMonth(MonthValue(attrs)),
                                     clock.cutoffYear, clock.cutoffMonth))
  {
    var month := ParseMonth(MonthValue(attrs));
    match WindowYear(YearValue(clock, attrs))
    case Err(_) => true
    case Ok(y) => y * 100 + month >= CutoffStamp(clock)
  }

  /** The feature survives both the coordinate checks and the window. */
  predicate Accepted(rt: Runtime, clock: Clock, f: Feature) {
    && ValidLocation(Coordinates(rt, f).0, Coordinates(rt, f).1)
    && InWindow(clock, f.attributes)
  }

  /** There is no upper bound: any later year passes the window. */
  lemma FutureYearsPass(clock: Clock, attrs: Attrs, y: int)
    requires clock.cutoffMonth <= 12 && clock.cutoffYear < y
    requires YearValue(clock, attrs) == Int(y) && 0 <= ParseMonth(MonthValue(attrs))
    ensures InWindow(clock, attrs)
  {
  }

  // ---------------------------------------------------------------------
  // Building the record
  // ---------------------------------------------------------------------

  /** `int(v) if v else fallback`. */
  function IntOr(v: Value, fallback: int): (r: Result<int, ConversionError>)
    ensures !Truthy(v) ==> r == Ok(fallback)
    ensures Truthy(v) && v.Int? ==> r == Ok(v.i)
  {
    if Truthy(v) then ToInt(v) else Ok(fallback)
  }

  /** The conversions of the record's year, day and hour all succeed. */
  predicate Convertible(clock: Clock, attrs: Attrs) {
    && IntOr(YearValue(clock, attrs), clock.currentYear).Ok?
    && IntOr(DayValue(attrs), 1).Ok?
    && IntOr(HourValue(attrs), 0).Ok?
  }

  /** The requirement every kept record meets. */
  predicate WellFormed(clock: Clock, tt: string, r: Record) {
    && ValidLocation(r.lat, r.lng)
    && r.theftType == tt
    && r.year * 100 + r.month >= CutoffStamp(clock)
    && |r.id| > |tt| && r.id[..|tt| + 1] == tt + "-"
  }

  /** `str(v).strip()` for the text fields. */
  function TextField(rt: Runtime, v: Value): (s: string)
    ensures TrimmedOf(IsSpace, ToStr(rt, v), LeadingSpace(ToStr(rt, v)), s)
    ensures Strip(s) == s
    ensures v.Str? && Strip(v.s) == v.s ==> s == v.s
  {
    StripIdempotent(ToStr(rt, v));
    Strip(ToStr(rt, v))
  }

  /** The record's date string, from the raw date or the components. */
  function RecordDate(rt: Runtime, clock: Clock, attrs: Attrs): string {
    ParseDateString(rt, clock.currentYear, RawDate(attrs), YearValue(clock, attrs),
                    Int(ParseMonth(MonthValue(attrs))), DayValue(attrs))
  }

  /**
   * The record of an accepted feature, `kept` records having been kept
   * before it. `int(year)`, `int(day)` and `int(hour)` are outside any try, so
   * a non-numeric value raises out of the whole run.
   */
  function BuildRecord(rt: Runtime, clock: Clock, tt: string, f: Feature, kept: nat): (r: Result<Record, ConversionError>)
    ensures r.Ok? <==> Convertible(clock, f.attributes)
    ensures r.Ok? ==> (r.value.lat, r.value.lng) == Coordinates(rt, f) && r.value.theftType == tt
    ensures r.Ok? ==> r.value.id == tt + "-" + ToStr(rt, RecordId(f.attributes, kept))
    ensures r.Ok? ==> r.value.month == ParseMonth(MonthValue(f.attributes))
    ensures r.Ok? ==> r.value.date == ParseDateString(rt, clock.currentYear, RawDate(f.attributes),
                                                      YearValue(clock, f.attributes), Int(r.value.month),
                                                      DayValue(f.attributes))
    ensures r.Ok? ==> Ok(r.value.day) == IntOr(DayValue(f.attributes), 1)
    ensures r.Ok? ==> Ok(r.value.year) == IntOr(YearValue(clock, f.attributes), clock.currentYear)
    ensures r.Ok? && Truthy(HourValue(f.attributes)) ==> Ok(r.value.hour) == ToInt(HourValue(f.attributes))
    ensures r.Ok? && !Truthy(HourValue(f.attributes)) ==> r.value.hour == 0
    ensures r.Ok? ==> r.value.neighbourhood == TextField(rt, NeighbourhoodValue(f.attributes))
    ensures r.Ok? ==> r.value.premiseType == TextField(rt, PremiseValue(f.attributes))
    ensures r.Ok? ==> r.value.status == TextField(rt, StatusValue(f.attributes))
  {
    var attrs := f.attributes;
    var year := IntOr(YearValue(clock, attrs), clock.currentYear);
    var day := IntOr(DayValue(attrs), 1);
    var hour := IntOr(HourValue(attrs), 0);
    if year.Err? then Err(year.error)
    else if day.Err? then Err(day.error)
    else if hour.Err? then Err(hour.error)
    else
      var coords := Coordinates(rt, f);
      Ok(Record(
        tt + "-" + ToStr(rt, RecordId(attrs, kept)), tt, RecordDate(rt, clock, attrs),
        year.value, ParseMonth(MonthValue(attrs)), day.value, hour.value,
        TextField(rt, NeighbourhoodValue(attrs)), TextField(rt, PremiseValue(attrs)),
        coords.0, coords.1, TextField(rt, StatusValue(attrs))))
  }

  /**
   * A feature with no date field, a year, a month name and a day: the record
   * carries the year and the month's number; its day is the day, or 1 when the
   * day is 0 (falsy); its date string formats `int(day)` as it is, so a day of
   * 0 gives day 1 beside a date ending in "-00".
   */
  lemma ComponentsRecord(rt: Runtime, clock: Clock, tt: string, f: Feature, kept: nat, y: int, k: nat, d: int)
    requires NoneOf(f.attributes, DATE_FIELDS)
    requires Get(f.attributes, "OCC_YEAR") == Int(y) && y != 0
    requires k < 12 && Get(f.attributes, "OCC_MONTH") == Str(MONTH_NAMES[k])
    requires Get(f.attributes, "OCC_DAY") == Int(d)
    requires IntOr(HourValue(f.attributes), 0).Ok?
    ensures BuildRecord(rt, clock, tt, f, kept).Ok?
    ensures var r := BuildRecord(rt, clock, tt, f, kept).value;
            && r.year == y && r.month == k + 1 && r.day == (if d == 0 then 1 else d)
            && r.date == DateString(y, k + 1, d)
  {
    var attrs := f.attributes;
    ComponentValues(clock, attrs, y, k, d);
    assert IntOr(YearValue(clock, attrs), clock.currentYear) == Ok(y);
    assert IntOr(DayValue(attrs), 1) == Ok(if d == 0 then 1 else d);
    ParseDateStringOfInts(rt, clock.currentYear, y, k + 1, d);
  }

  /** The values `_first_of` picks when the date fields are absent and the components present. */
  lemma ComponentValues(clock: Clock, attrs: Attrs, y: int, k: nat, d: int)
    requires NoneOf(attrs, DATE_FIELDS)
    requires Get(attrs, "OCC_YEAR") == Int(y)
    requires k < 12 && Get(attrs, "OCC_MONTH") == Str(MONTH_NAMES[k])
    requires Get(attrs, "OCC_DAY") == Int(d)
    ensures RawDate(attrs) == Str("")
    ensures YearValue(clock, attrs) == Int(y)
    ensures ParseMonth(MonthValue(attrs)) == k + 1
    ensures DayValue(attrs) == Int(d)
  {
    FirstOfEarliest(attrs, YEAR_FIELDS, Int(clock.currentYear), 0);
    FirstOfEarliest(attrs, MONTH_FIELDS, Int(1), 0);
    FirstOfEarliest(attrs, DAY_FIELDS, Int(1), 0);
    ParseMonthNames("");
  }

  /** OCC_YEAR 2025, OCC_MONTH "March", OCC_DAY 10 and no date field give the date "2025-03-10". */
  lemma MarchTenthRecord(rt: Runtime, clock: Clock, tt: string, geometry: Attrs, kept: nat)
    ensures var f := Feature(map["OCC_YEAR" := Int(2025), "OCC_MONTH" := Str("March"), "OCC_DAY" := Int(10)], geometry);
            && BuildRecord(rt, clock, tt, f, kept).Ok?
            && BuildRecord(rt, clock, tt, f, kept).value.date == "2025-03-10"
  {
    var attrs := map["OCC_YEAR" := Int(2025), "OCC_MONTH" := Str("March"), "OCC_DAY" := Int(10)];
    var f := Feature(attrs, geometry);
    assert NoneOf(attrs, DATE_FIELDS);
    assert NoneOf(attrs, HOUR_FIELDS);
    ComponentsRecord(rt, clock, tt, f, kept, 2025, 2, 10);
    MarchTenthString();
  }

  /**
   * A record's year is the window year, or the current year when the window
   * year was falsy (read as 0), so a feature inside the window yields a record
   * inside it.
   */
  lemma WindowCarriesOver(clock: Clock, attrs: Attrs, year: int)
    requires InWindow(clock, attrs)
    requires IntOr(YearValue(clock, attrs), clock.currentYear) == Ok(year)
    ensures year * 100 + ParseMonth(MonthValue(attrs)) >= CutoffStamp(clock)
  {
    if !Truthy(YearValue(clock, attrs)) {
      assert WindowYear(YearValue(clock, attrs)) == Ok(0);
    }
  }

  lemma DashPrefix(tt: string, rest: string)
    ensures |tt + "-" + rest| > |tt|
    ensures (tt + "-" + rest)[..|tt| + 1] == tt + "-"
  {
    assert (tt + "-" + rest)[..|tt| + 1] == (tt + "-" + rest)[..|tt + "-"|];
  }

  /** A built record of an accepted feature meets the output requirement. */
  lemma AcceptedBuildsWellFormed(rt: Runtime, clock: Clock, tt: string, f: Feature, kept: nat)
    requires Accepted(rt, clock, f)
    requires BuildRecord(rt, clock, tt, f, kept).Ok?
    ensures WellFormed(clock, tt, BuildRecord(rt, clock, tt, f, kept).value)
  {
    var r := BuildRecord(rt, clock, tt, f, kept).value;
    WindowCarriesOver(clock, f.attributes, r.year);
    DashPrefix(tt, ToStr(rt, RecordId(f.attributes, kept)));
  }

  // ---------------------------------------------------------------------
  // The loop over all features
  // ---------------------------------------------------------------------

  /**
   * The loop of `process_features` from feature i on, for any acceptance test
   * and record builder: rejected features are skipped, an accepted one is
   * built with the number of records kept so far, and a builder error ends
   * the loop.
   */
  function ScanFrom<F, R, E>(keep: F -> bool, build: (F, nat) -> Result<R, E>, fs: seq<F>, i: nat, acc: seq<R>)
    : (r: Result<seq<R>, E>)
    requires i <= |fs|
    ensures r.Ok? ==> acc <= r.value && |r.value| <= |acc| + |fs| - i
    decreases |fs| - i
  {
    if i == |fs| then Ok(acc)
    else if !keep(fs[i]) then ScanFrom(keep, build, fs, i + 1, acc)
    else
      match build(fs[i], |acc|)
      case Err(e) => Err(e)
      case Ok(x) => ScanFrom(keep, build, fs, i + 1, acc + [x])
  }

  /** The accepted elements, in input order. */
  function Filter<F>(keep: F -> bool, fs: seq<F>): (gs: seq<F>)
    ensures |gs| <= |fs|
  {
    if |fs| == 0 then [] else (if keep(fs[0]) then [fs[0]] else []) + Filter(keep, fs[1..])
  }

  /** The filter keeps exactly the accepted elements. */
  lemma {:induction false} FilterMembers<F>(keep: F -> bool, fs: seq<F>)
    ensures forall k | 0 <= k < |Filter(keep, fs)| :: Filter(keep, fs)[k] in fs && keep(Filter(keep, fs)[k])
    ensures forall k | 0 <= k < |fs| && keep(fs[k]) :: fs[k] in Filter(keep, fs)
  {
    if |fs| > 0 {
      FilterMembers(keep, fs[1..]);
      assert forall k | 1 <= k < |fs| :: fs[k] == fs[1..][k - 1];
    }
  }

  /** Every element of `gs` builds when numbered from `start`. */
  predicate BuildsAll<F, R, E>(build: (F, nat) -> Result<R, E>, gs: seq<F>, start: nat) {
    forall i | 0 <= i < |gs| :: build(gs[i], start + i).Ok?
  }

  function BuiltAll<F, R, E>(build: (F, nat) -> Result<R, E>, gs: seq<F>, start: nat): (rs: seq<R>)
    requires BuildsAll(build, gs, start)
    ensures |rs| == |gs|
    ensures forall i | 0 <= i < |gs| :: build(gs[i], start + i) == Ok(rs[i])
  {
    seq(|gs|, i requires 0 <= i < |gs| => build(gs[i], start + i).value)
  }

  lemma BuildsAllCons<F, R, E>(build: (F, nat) -> Result<R, E>, g: F, rest: seq<F>, start: nat)
    ensures BuildsAll(build, [g] + rest, start) <==> build(g, start).Ok? && BuildsAll(build, rest, start + 1)
    ensures BuildsAll(build, [g] + rest, start) ==>
              BuiltAll(build, [g] + rest, start) == [build(g, start).value] + BuiltAll(build, rest, start + 1)
  {
    var gs := [g] + rest;
    assert forall k | 0 <= k < |rest| :: rest[k] == gs[k + 1];
    if build(g, start).Ok? && BuildsAll(build, rest, start + 1) {
      forall k | 0 <= k < |gs| ensures build(gs[k], start + k).Ok? {
        if k > 0 { assert build(rest[k - 1], start + 1 + (k - 1)).Ok?; }
      }
    }
    if BuildsAll(build, gs, start) {
      forall k | 0 <= k < |rest| ensures build(rest[k], start + 1 + k).Ok? {
        assert build(gs[k + 1], start + (k + 1)).Ok?;
      }
      assert build(gs[0], start + 0).Ok?;
      var all, tail := BuiltAll(build, gs, start), BuiltAll(build, rest, start + 1);
      forall k | 0 <= k < |gs| ensures all[k] == ([build(g, start).value] + tail)[k] {
        if k > 0 { assert build(gs[k], start + k) == build(rest[k - 1], start + 1 + (k - 1)); }
      }
      assert all == [build(g, start).value] + tail;
    }
  }

  lemma {:induction false} ScanFromIsFilterThenBuild<F, R, E>(
    keep: F -> bool, build: (F, nat) -> Result<R, E>, fs: seq<F>, i: nat, acc: seq<R>)
    requires i <= |fs|
    ensures var gs := Filter(keep, fs[i..]);
            var r := ScanFrom(keep, build, fs, i, acc);
            && (r.Ok? <==> BuildsAll(build, gs, |acc|))
            && (r.Ok? ==> r.value == acc + BuiltAll(build, gs, |acc|))
    decreases |fs| - i
  {
    if i < |fs| {
      var gs := Filter(keep, fs[i..]);
      var rest := Filter(keep, fs[i + 1..]);
      assert fs[i..][1..] == fs[i + 1..];
      if !keep(fs[i]) {
        assert gs == rest;
        ScanFromIsFilterThenBuild(keep, build, fs, i + 1, acc);
      } else {
        assert gs == [fs[i]] + rest;
        BuildsAllCons(build, fs[i], rest, |acc|);
        var b := build(fs[i], |acc|);
        if b.Ok? {
          ScanFromIsFilterThenBuild(keep, build, fs, i + 1, acc + [b.value]);
        }
      }
    } else {
      assert fs[i..] == [];
    }
  }

  function Keep(rt: Runtime, clock: Clock): Feature -> bool {
    f => Accepted(rt, clock, f)
  }

  function Build(rt: Runtime, clock: Clock, tt: string): (Feature, nat) -> Result<Record, ConversionError> {
    (f: Feature, kept: nat) => BuildRecord(rt, clock, tt, f, kept)
  }

  /** The accepted features, in input order. */
  function AcceptedFeatures(rt: Runtime, clock: Clock, fs: seq<Feature>): (gs: seq<Feature>)
    ensures forall g :: g in gs <==> g in fs && Accepted(rt, clock, g)
  {
    FilterMembers(Keep(rt, clock), fs);
    Filter(Keep(rt, clock), fs)
  }

  lemma BuiltWellFormed(rt: Runtime, clock: Clock, tt: string, g: Feature, k: nat, rec: Record)
    requires Keep(rt, clock)(g)
    requires Build(rt, clock, tt)(g, k) == Ok(rec)
    ensures WellFormed(clock, tt, rec)
  {
    AcceptedBuildsWellFormed(rt, clock, tt, g, k);
  }

  lemma ScanWellFormed(rt: Runtime, clock: Clock, tt: string, fs: seq<Feature>)
    ensures var r := ScanFrom(Keep(rt, clock), Build(rt, clock, tt), fs, 0, []);
            r.Ok? ==> forall k | 0 <= k < |r.value| :: WellFormed(clock, tt, r.value[k])
  {
    var keep, build := Keep(rt, clock), Build(rt, clock, tt);
    var gs := Filter(keep, fs);
    var r := ScanFrom(keep, build, fs, 0, []);
    assert fs[0..] == fs;
    ScanFromIsFilterThenBuild(keep, build, fs, 0, []);
    FilterMembers(keep, fs);
    if r.Ok? {
      var out := BuiltAll(build, gs, 0);
      assert r.value == out;
      forall k | 0 <= k < |out|
        ensures WellFormed(clock, tt, out[k])
      {
        assert build(gs[k], 0 + k) == Ok(out[k]);
        BuiltWellFormed(rt, clock, tt, gs[k], k, out[k]);
      }
    }
  }

  /**
   * `process_features(raw_features, theft_type)`: the clean records, or the
   * exception one of the unguarded conversions raised.
   */
  function ProcessFeatures(rt: Runtime, clock: Clock, tt: string, fs: seq<Feature>)
    : (r: Result<seq<Record>, ConversionError>)
    ensures r.Ok? ==> |r.value| <= |fs|
    ensures r.Ok? ==> forall k | 0 <= k < |r.value| :: WellFormed(clock, tt, r.value[k])
  {
    ScanWellFormed(rt, clock, tt, fs);
    ScanFrom(Keep(rt, clock), Build(rt, clock, tt), fs, 0, [])
  }

  /**
   * The single pass equals the two-stage description: keep the accepted
   * features in order, then build the i-th of them as record i; the run
   * succeeds exactly when every accepted feature builds.
   */
  lemma ProcessFeaturesIsFilterThenBuild(rt: Runtime, clock: Clock, tt: string, fs: seq<Feature>)
    ensures var gs := AcceptedFeatures(rt, clock, fs);
            var r := ProcessFeatures(rt, clock, tt, fs);
            && (r.Ok? <==> BuildsAll(Build(rt, clock, tt), gs, 0))
            && (r.Ok? ==> r.value == BuiltAll(Build(rt, clock, tt), gs, 0))
  {
    assert fs[0..] == fs;
    ScanFromIsFilterThenBuild(Keep(rt, clock), Build(rt, clock, tt), fs, 0, []);
  }

  // ---------------------------------------------------------------------
  // Consequences for single fields and single features
  // ---------------------------------------------------------------------

  /**
   * An accepted feature whose year, day or hour cannot be converted makes the
   * whole run raise, whatever the other features hold.
   */
  lemma UnbuildableAborts(rt: Runtime, clock: Clock, tt: string, fs: seq<Feature>, f: Feature)
    requires f in fs && Accepted(rt, clock, f)
    requires !Convertible(clock, f.attributes)
    ensures ProcessFeatures(rt, clock, tt, fs).Err?
  {
    var gs := AcceptedFeatures(rt, clock, fs);
    assert f in gs;
    var k :| 0 <= k < |gs| && gs[k] == f;
    assert !Build(rt, clock, tt)(gs[k], 0 + k).Ok?;
    ProcessFeaturesIsFilterThenBuild(rt, clock, tt, fs);
  }

  /**
   * A non-numeric OCC_YEAR passes the window check, whose `int(year)` failure
   * keeps the feature, and then raises in the record's own `int(year)`.
   */
  lemma UnconvertibleYearAborts(rt: Runtime, clock: Clock, tt: string, fs: seq<Feature>, f: Feature, s: string)
    requires f in fs
    requires ValidLocation(Coordinates(rt, f).0, Coordinates(rt, f).1)
    requires Get(f.attributes, "OCC_YEAR") == Str(s) && |s| > 0 && ParseInt(s).None?
    ensures ProcessFeatures(rt, clock, tt, fs).Err?
  {
    FirstOfEarliest(f.attributes, YEAR_FIELDS, Int(clock.currentYear), 0);
    assert WindowYear(YearValue(clock, f.attributes)).Err?;
    UnbuildableAborts(rt, clock, tt, fs, f);
  }

  /** With no OCC_DAY, OCC_DOW stands in, and a weekday name makes `int(day)` raise. */
  lemma WeekdayNameRaises(rt: Runtime, clock: Clock, tt: string, f: Feature, kept: nat)
    requires Get(f.attributes, "OCC_DAY").Null? && Get(f.attributes, "OCC_DOW") == Str("Monday")
    ensures !Convertible(clock, f.attributes)
    ensures IntOr(YearValue(clock, f.attributes), clock.currentYear).Ok? ==>
              BuildRecord(rt, clock, tt, f, kept) == Err(ValueError)
  {
    assert DAY_FIELDS[..1] == ["OCC_DAY"];
    FirstOfEarliest(f.attributes, DAY_FIELDS, Int(1), 1);
    assert DayValue(f.attributes) == Str("Monday");
    ParseIntRejects("Monday");
  }

  lemma HourField(attrs: Attrs)
    ensures Get(attrs, "OCC_HOUR").Null? ==> HourValue(attrs) == Int(12)
    ensures !Get(attrs, "OCC_HOUR").Null? ==> HourValue(attrs) == Get(attrs, "OCC_HOUR")
  {
    if !Get(attrs, "OCC_HOUR").Null? {
      FirstOfEarliest(attrs, HOUR_FIELDS, Int(12), 0);
    }
  }

  /** A missing OCC_HOUR defaults to 12. */
  lemma MissingHourIsNoon(rt: Runtime, clock: Clock, tt: string, f: Feature, kept: nat)
    requires BuildRecord(rt, clock, tt, f, kept).Ok?
    requires Get(f.attributes, "OCC_HOUR").Null?
    ensures BuildRecord(rt, clock, tt, f, kept).value.hour == 12
  {
    HourField(f.attributes);
  }

  /** A falsy OCC_HOUR (0 or "") is present, so it is not defaulted, and becomes 0. */
  lemma FalsyHourIsMidnight(rt: Runtime, clock: Clock, tt: string, f: Feature, kept: nat)
    requires BuildRecord(rt, clock, tt, f, kept).Ok?
    requires Get(f.attributes, "OCC_HOUR") == Int(0) || Get(f.attributes, "OCC_HOUR") == Str("")
    ensures BuildRecord(rt, clock, tt, f, kept).value.hour == 0
  {
    HourField(f.attributes);
  }

  lemma NeighbourhoodField(attrs: Attrs)
    ensures NoneOf(attrs, NEIGHBOURHOOD_FIELDS) ==> NeighbourhoodValue(attrs) == Str("Unknown")
    ensures !Get(attrs, "NEIGHBOURHOOD_158").Null? ==> NeighbourhoodValue(attrs) == Get(attrs, "NEIGHBOURHOOD_158")
  {
    if !Get(attrs, "NEIGHBOURHOOD_158").Null? {
      FirstOfEarliest(attrs, NEIGHBOURHOOD_FIELDS, Str("Unknown"), 0);
    }
  }

  /** A missing neighbourhood reads "Unknown" in the record. */
  lemma MissingNeighbourhoodIsUnknown(rt: Runtime, attrs: Attrs)
    requires NoneOf(attrs, NEIGHBOURHOOD_FIELDS)
    ensures TextField(rt, NeighbourhoodValue(attrs)) == "Unknown"
  {
    StripKeepsTrimmed("Unknown");
  }

  /** An empty neighbourhood is present, so the record's stays empty rather than reading "Unknown". */
  lemma EmptyNeighbourhoodStaysEmpty(rt: Runtime, attrs: Attrs)
    requires Get(attrs, "NEIGHBOURHOOD_158") == Str("")
    ensures TextField(rt, NeighbourhoodValue(attrs)) == ""
  {
    NeighbourhoodField(attrs);
  }

  /** EVENT_UNIQUE_ID, when present, names the record. */
  lemma EventIdNamesRecord(rt: Runtime, clock: Clock, tt: string, f: Feature, kept: nat, e: string)
    requires BuildRecord(rt, clock, tt, f, kept).Ok?
    requires Get(f.attributes, "EVENT_UNIQUE_ID") == Str(e)
    ensures BuildRecord(rt, clock, tt, f, kept).value.id == tt + "-" + e
  {
    FirstOfEarliest(f.attributes, ID_FIELDS, Str(NatToString(kept)), 0);
  }

  lemma BuiltIdFromPosition(rt: Runtime, clock: Clock, tt: string, g: Feature, k: nat, rec: Record)
    requires BuildRecord(rt, clock, tt, g, k) == Ok(rec)
    requires RecordId(g.attributes, k) == Str(NatToString(k))
    ensures rec.id == tt + "-" + NatToString(k)
  {
  }

  /**
   * A kept record without EVENT_UNIQUE_ID or OBJECTID is named by its
   * position among the kept records.
   */
  lemma PositionalIds(rt: Runtime, clock: Clock, tt: string, fs: seq<Feature>, i: nat)
    requires ProcessFeatures(rt, clock, tt, fs).Ok?
    requires i < |AcceptedFeatures(rt, clock, fs)|
    requires NoneOf(AcceptedFeatures(rt, clock, fs)[i].attributes, ID_FIELDS)
    ensures i < |ProcessFeatures(rt, clock, tt, fs).value|
    ensures ProcessFeatures(rt, clock, tt, fs).value[i].id == tt + "-" + NatToString(i)
  {
    ProcessFeaturesIsFilterThenBuild(rt, clock, tt, fs);
    var gs := AcceptedFeatures(rt, clock, fs);
    var r := ProcessFeatures(rt, clock, tt, fs).value;
    assert Build(rt, clock, tt)(gs[i], 0 + i) == Ok(r[i]);
    assert RecordId(gs[i].attributes, i) == Str(NatToString(i));
    BuiltIdFromPosition(rt, clock, tt, gs[i], i, r[i]);
  }
}

=== FILE: where_clauses.dfy ===
/**
 * The query strategies of `fetch_features`: `build_where_clauses` and the
 * field list it is given when field discovery found nothing.
 */
module WhereClauses {
  import opened Text

  /** One WHERE predicate, most selective first in declaration order. */
  datatype Clause =
    | YearFrom(year: int)          // OCC_YEAR >= cutoff year
    | OccDateFrom(ms: int)         // OCC_DATE >= cutoff epoch ms
    | ReportDateFrom(ms: int)      // REPORT_DATE >= cutoff epoch ms
    | Everything                   // 1=1

  /** The predicate text sent as the `where` parameter. */
  function Where(c: Clause): string {
    match c
    case YearFrom(y) => "OCC_YEAR >= " + IntToString(y)
    case OccDateFrom(ms) => "OCC_DATE >= " + IntToString(ms)
    case ReportDateFrom(ms) => "REPORT_DATE >= " + IntToString(ms)
    case Everything => "1=1"
  }

  /** Position of a clause kind in the fixed strategy order. */
  function Rank(c: Clause): nat {
    match c
    case YearFrom(_) => 0
    case OccDateFrom(_) => 1
    case ReportDateFrom(_) => 2
    case Everything => 3
  }

  /** The fields assumed present when discovery returns an empty list. */
  const GUESSED_FIELDS: seq<string> := ["OCC_YEAR", "OCC_DATE", "REPORT_DATE"]

  function EffectiveFields(discovered: seq<string>): (fields: seq<string>)
    ensures |discovered| > 0 ==> fields == discovered
    ensures |discovered| == 0 ==> "OCC_YEAR" in fields && "OCC_DATE" in fields && "REPORT_DATE" in fields
  {
    if |discovered| > 0 then discovered else GUESSED_FIELDS
  }

  function Count(b: bool): nat {
    if b then 1 else 0
  }

  /**
   * `build_where_clauses`: the year, OCC_DATE and REPORT_DATE filters, each
   * only when its field is available, in that order, then the catch-all.
   */
  function BuildWhereClauses(cutoffYear: int, cutoffMs: int, available: seq<string>): (r: seq<Clause>)
    ensures |r| == 1 + Count("OCC_YEAR" in available) + Count("OCC_DATE" in available)
                     + Count("REPORT_DATE" in available)
    ensures r[|r| - 1] == Everything
    ensures YearFrom(cutoffYear) in r <==> "OCC_YEAR" in available
    ensures OccDateFrom(cutoffMs) in r <==> "OCC_DATE" in available
    ensures ReportDateFrom(cutoffMs) in r <==> "REPORT_DATE" in available
    ensures forall i | 0 <= i < |r| ::
              r[i] in [YearFrom(cutoffYear), OccDateFrom(cutoffMs), ReportDateFrom(cutoffMs), Everything]
    ensures forall i, j | 0 <= i < j < |r| :: Rank(r[i]) < Rank(r[j])
  {
    var year := if "OCC_YEAR" in available then [YearFrom(cutoffYear)] else [];
    var occ := if "OCC_DATE" in available then [OccDateFrom(cutoffMs)] else [];
    var report := if "REPORT_DATE" in available then [ReportDateFrom(cutoffMs)] else [];
    year + occ + report + [Everything]
  }

  /** Recovers a clause kind from its predicate text. */
  function KindOf(s: string): nat {
    if |s| < 5 then 3 else if s[0] == 'R' then 2 else if s[4] == 'Y' then 0 else 1
  }

  lemma KindOfWhere(c: Clause)
    ensures KindOf(Where(c)) == Rank(c)
  {
  }

  /** Distinct strategies send distinct predicate text. */
  lemma WhereInjective(a: Clause, b: Clause)
    requires Where(a) == Where(b)
    ensures a == b
  {
    KindOfWhere(a);
    KindOfWhere(b);
    if !a.Everything? {
      var s := Where(a);
      var n := if a.ReportDateFrom? then 15 else 12;
      var x, y := if a.YearFrom? then a.year else a.ms, if b.YearFrom? then b.year else b.ms;
      assert s[n..] == IntToString(x);
      assert s[n..] == IntToString(y);
      IntToStringInjective(x, y);
    }
  }

  /** With every field available the strategies are year, OCC_DATE, REPORT_DATE, all. */
  lemma AllFieldsGiveFourStrategies(cutoffYear: int, cutoffMs: int)
    ensures BuildWhereClauses(cutoffYear, cutoffMs, EffectiveFields([]))
            == [YearFrom(cutoffYear), OccDateFrom(cutoffMs), ReportDateFrom(cutoffMs), Everything]
  {
  }
}

=== FILE: wrappers.dfy ===
/** Optional values and results that carry the exception a Python call would raise. */
module Wrappers {

  datatype Option<+T> = None | Some(value: T)

  datatype Result<+T, +E> = Ok(value: T) | Err(error: E)
}
